=== FILE: README.md ===
# Image resize tool: path resolution and job planning

A Dafny model of the core of `index.js`, a Node command-line tool. The tool reads
a JSON configuration of image entries and aliases. It expands each entry into
concrete resize jobs and then runs those jobs one after another through
ImageMagick and the optimizers optipng and jpegtran. The model covers three
parts of that core.

- **Alias engine.** `split(name).join(path)` replacement (`Js.ReplaceAll`). The
  one-pass, in-place alias-in-alias preparation of `prepareConfigs`
  (`Aliases.Prepared`, `Aliases.PrepareAliases`). The left fold of an alias
  table over `basePath + pattern` (`Aliases.ApplyAliases`).
- **Entry resolution.** Comment and tag filtering (`Config.Items`, `Tags`). The
  first alias group and one alias table per variant (`Expand.Leader`,
  `Expand.Variants`, `Expand.VariantJobs`). Glob expansion with the `*.ext`
  target rewrite (`Expand.ResolveImagePath`). Last-wins removal of duplicates by
  source base name (`Dedup`).
- **Job planning.** Splitting `resolution` at `x`. The quality gate, the
  options merge and the choice between proportional and exact resize, recorded
  as a `ResizeCommand`. The optimize gate and the optimizer's argument list
  (`Generate.OptimizeImage`). The strictly sequential chain of jobs
  (`Generate.GenerateImages`). The argv pair scan of `readParameters` (`Params`).

`Pipeline.Run` connects them for one run over an already loaded configuration.

Outside effects are parameters. Glob is a function from pattern and working
directory to an optional list of matches (`Expand.Glob`). Directory creation, the
existence check and the set of ImageMagick operations are the fields of
`Generate.Fs`. `path.normalize` is the identity, and paths are POSIX (`/`).
JSON fields whose type the tool does not check are `Js.Value`. Loose equality
with `false`, truthiness and `!= null` are written out over that type.

The tool's behaviour that never finishes is modelled as explicit outcomes:

- An entry whose source pattern names no alias never settles. `Expand.Resolution.Stalled` and
  `Pipeline.RunResult.RunStalled` model this.
- A `.png`, `.jpg` or `.jpeg` target whose optimizer setting is absent or `false`
  reaches a `break` that resolves nothing. `Generate.OptimizeDecision.Hangs`
  models this, and the chain records that it does not settle.

Where the code and the tool's documentation differ, the model follows the code:

- Duplicates keep the last job per base name and are ordered by that last
  occurrence: `[A1, B2, A3]` becomes `[B2, A3]` (`Dedup.LastOccurrenceOrder`).
- An option naming an operation ImageMagick does not have is skipped without
  a warning (`Generate.OptionStep.Unknown`). Only an option value whose `join`
  throws is warned about.
- `quality` is applied whenever it is not `null`, including when it is
  undefined.
- During preparation each alias also rewrites its own path. An alias whose path
  mentions its own name therefore grows (`Aliases.SelfReferenceGrows`).
- The command line is read only in pairs whose value sits at an odd position
  from 3 on (`Params.ShiftedFlagIgnored`).
- The `*.ext` pattern's class `[a-zA-z0-9]` is reproduced as written. Its
  range `A-z` also admits `[ \ ] ^ _` and the backquote.

## Model

| member | source | states |
|---|---|---|
| Js.IndexOf | index.js:356-363 | `indexOf` is the first position where the needle occurs, or -1 when it occurs nowhere |
| Js.Split | index.js:109 | a non-empty separator gives one part exactly when it does not occur, and that part is the whole string |
| Js.SplitJoin | index.js:301 | joining the parts of a split with the same separator gives back the original string |
| Js.SplitPartsAvoidSeparator | index.js:301 | no part produced by splitting at a non-empty separator contains that separator |
| Js.ReplaceAll | index.js:417-422 | `split(name).join(path)` leaves the string unchanged when `name` does not occur or when `path == name` |
| Js.LooselyFalseExamples | index.js:531 | the strings `""`, `"0"`, `"0.0e5"` and `"0x00"` are loosely equal to `false`; `"false"`, `"true"` and `"1"` are not |
| Paths.Basename | index.js:385 | a base name contains no separator |
| Paths.BasenameOfJoin | index.js:455 | the base name of `dir + "/" + name` is `name` for a single non-empty segment |
| Paths.NamePlusExtension | index.js:455 | the stem from `path.parse(...).name` followed by `extname` is the base name |
| Aliases.ApplyAliasesAppend | index.js:417-430 | applying a table `t1 + t2` is applying `t1` and then `t2` (left fold in table order) |
| Aliases.ApplyAliasesAbsent | index.js:417-430 | a string that contains none of the table's names is left unchanged |
| Aliases.Prepared | index.js:299-303 | preparation keeps the number of aliases and each alias's name, in order |
| Aliases.ApplyAliasesUnchanged | index.js:417-430 | a table none of whose entries changes a string leaves that string unchanged |
| Aliases.PrepareAliases | index.js:299-303 | the in-place nested loop computes exactly the one-pass preparation: earlier entries already rewritten, later ones original, each entry rewritten by itself too |
| Aliases.RewritePath | index.js:300-302 | the inner loop for entry `i` ends with the entry's one-pass path, reading entry `i` after each write-back |
| Aliases.RewriteStepAdvances | index.js:301 | one inner step (`RewriteStep`), reading the entries as they stand after entry `i` was written back, advances entry `i` by exactly one table entry |
| Aliases.OnePassIsNotAFixedPoint | index.js:299-303 | with `A->x, B->C, C->A`, B becomes `A`, which still names an alias; a second pass would change it to `x` |
| Aliases.SelfReferenceGrows | index.js:299-303 | `A -> A/x` becomes `A -> A/x/x`, because each entry also rewrites itself |
| Config.Items | index.js:293-296 | dropping non-objects keeps as many entries as there are objects, keeps every object and adds nothing |
| Config.ItemsInOrder | index.js:293-296 | object `k` of the filtered list is the list entry preceded by exactly `k` objects, so the objects keep their order and multiplicity |
| Config.PrepareConfig | index.js:284-303 | a given base path is kept; a missing one becomes the working directory joined with the directory of the config file; images are the objects in order; aliases are the one-pass preparation of the alias objects; the options and optimizer settings are kept |
| Tags.SelectByTags | index.js:326-327 | aborts exactly when some entry's tags are not a string; otherwise the result is a subsequence of the entries holding exactly the entries whose split tags meet the requested ones, each as often as it is listed |
| Tags.TagExamples | index.js:22 | `"icon,splash"` is selected by `splash`, not by `web`, and not by the default `["all"]` |
| Dedup.DedupByBasename | index.js:382-388 | reverse, keep-first-per-base-name, reverse equals keeping each job that no later job shares a base name with |
| Dedup.KeepLastSubseq | index.js:382-388 | for any key (the base name here), the survivors are a subsequence of the jobs |
| Dedup.KeepLastKeys | index.js:382-388 | for any key, every key in the input is still represented among the survivors |
| Dedup.KeepLastUnique | index.js:382-388 | for any key, no two survivors share a key |
| Dedup.KeepLastMembers | index.js:382-388 | for any key, a job survives exactly when it stands at the last position of its key |
| Dedup.KeepLastKeepsLast | index.js:382-388 | the job at the last position of its key survives |
| Dedup.KeepLastOnlyLast | index.js:382-388 | every survivor stands at the last position of its key |
| Dedup.KeepLastOfUnique | index.js:382-388 | a list without shared keys is left as it is |
| Dedup.DedupIdempotent | index.js:382-388 | removing duplicates twice is removing them once |
| Dedup.LastOccurrenceOrder | index.js:382-388 | `[A1, B2, A3]` with A1 and A3 sharing a base name becomes `[B2, A3]` |
| Expand.StarExtension | index.js:451-453 | a match is a `*.` followed by a non-empty run of class characters at the end of the target; the extension is that match without `*`, and any such position determines it |
| Expand.WildcardTargetName | index.js:451-457 | a rewritten target's base name is the match's stem followed by the target's extension |
| Expand.StarExtensionExamples | index.js:451 | `out/*.png` has the extension `.png`; `out/icon.png` has none |
| Expand.WildcardExample | index.js:451-457 | the match `img/logo.svg` for target `out/*.png` goes to `out/logo.png`; a target without a star is kept verbatim |
| Expand.BaseDir | index.js:411-414 | a non-empty base path ends in a slash or backslash afterwards, one separator is added at most, and an empty one stays empty |
| Expand.BaseDirIdempotent | index.js:411-414 | ensuring the trailing separator twice is ensuring it once |
| Expand.PatternWithoutAliases | index.js:417-422 | with no alias name occurring, the source pattern is the base directory followed by the entry's source path |
| Expand.ExpandMatches | index.js:444-460 | one job per match, in match order, each a copy of the entry with the match as source and the entry's target rewritten for that match |
| Expand.ExpandMatchesTargets | index.js:449-457 | every job's target is the entry's target verbatim when it has no `*.ext`; otherwise its base name is the match's stem followed by the extension |
| Expand.ResolveImagePath | index.js:440-468 | the expansion fails exactly when glob fails on the aliased source pattern; otherwise there is one job per match, in match order, with the match as source and the target rewritten for it; every job is a copy of the entry |
| Expand.FirstLeast | index.js:356-363 | the earliest position holding the smallest non-negative value; none exactly when every value is negative |
| Expand.Leader | index.js:356-363 | the first alias after a stable sort: no leader exactly when no name occurs; otherwise the smallest occurrence index, the earliest such alias in the list |
| Expand.Named | index.js:366-367 | the group of a name is the subsequence of aliases carrying that name, each as often as it is listed |
| Expand.Variants | index.js:356-368 | the variants are empty exactly when no alias name occurs; otherwise a subsequence of occurring aliases, all at the smallest occurrence index, holding every alias named like the leader as often as it is listed and no other |
| Expand.VariantsTie | index.js:356-365 | for `@ab/x` with aliases `@ab` then `@a`, both found at position 0, the list order decides: the variants are the `@ab` alias alone |
| Expand.VariantJob | index.js:371-377 | a variant globs the source pattern rewritten by the table `[v] + aliases`; a failed glob gives no jobs, otherwise one job per match with the match as source and the target rewritten; every job is a copy of the entry |
| Expand.VariantJobsAppend | index.js:371-381 | the jobs of concatenated variant lists are the concatenated jobs |
| Expand.GlobFailureIsolated | index.js:376-381 | a variant whose glob fails drops out and every other variant's jobs are kept |
| Expand.ResolveAliased | index.js:350-398 | no result exactly when no alias name occurs in the source path; otherwise the last job per base name from all variants' jobs |
| Expand.ResolveAliasedUnique | index.js:382-388 | an entry's jobs have distinct base names, form a subsequence of the variants' jobs, and cover every base name among them |
| Expand.Gather | index.js:328-338 | the selected entries settle exactly when every one of them names an alias |
| Expand.GatherAppend | index.js:328-338 | gathering a concatenation of entry lists concatenates their jobs, each list's once and in order, and fails when either list fails |
| Expand.GatherOne | index.js:328-333 | a single entry gathers exactly the jobs it resolves to |
| Expand.GatherMembers | index.js:328-338 | as a set, the gathered jobs are exactly the jobs the selected entries resolve to |
| Expand.GatherCopies | index.js:328-333 | every gathered job is a copy of one of the selected entries |
| Expand.ResolveImagePaths | index.js:316-340 | aborted exactly when some tags are not a string; stalled exactly when not aborted and a selected entry names no alias; every resolved job copies a selected entry |
| Expand.ResolvedJobs | index.js:316-340 | a resolved run's jobs are the gathered jobs of the tag-selected entries (each entry's jobs once, in order), and as a set exactly the jobs those entries resolve to |
| Generate.Lookup | index.js:578-601 | an option is found exactly when its name is present, and the value found is bound to that name |
| Generate.PutLookup | index.js:577-586 | after setting a key, looking it up gives the new value and every other key is unaffected |
| Generate.ExtendLookup | index.js:577-586 | after `_.extend(m, n)` a key reads as `n`'s binding when `n` has it and as `m`'s otherwise, with `m`'s keys kept in place |
| Generate.MergeOptionsLookup | index.js:577-586 | merged options read as the entry's own option when it has one and as the global one otherwise |
| Generate.StepOf | index.js:588-600 | an option is warned about exactly when its value is a truthy non-list; otherwise it is skipped exactly when ImageMagick has no such operation, and invoked with its list's items |
| Generate.Dimensions | index.js:523-525 | the width is the text before the first `x` (all of it when there is none); there is no height exactly when there is no `x`, otherwise it is the text between the first and the second `x` |
| Js.SplitHead | index.js:523-525 | the first part of a split is the text before the first separator, and the other parts are the split of the text after it |
| Generate.DimensionsRoundTrip | index.js:523-525 | splitting `w + "x" + h` gives back `w` and `h` when neither contains `x` |
| Generate.ResizeImage | index.js:555-621 | the command keeps source and target, sets a quality exactly when it is not `null`, uses the width and height of the resolution, is proportional exactly when `proportional` is `true` or `"true"`, and applies the merged options in order |
| Generate.OptimizeWantedExactly | index.js:531 | optimization is skipped exactly when `optimize` is `"false"` or loosely equal to `false` |
| Generate.OptimizeWantedExamples | index.js:531 | an undefined, `null`, `true`, `"true"` or `1` setting lets optimization run |
| Generate.OptimizeUnwantedExamples | index.js:531 | `false`, `"false"`, `0`, `""` and `"0"` skip optimization |
| Generate.SettingArgs | index.js:646-649 | the words of a non-empty string setting: none contains a space, and rejoined with spaces they give back the setting; any other setting gives none |
| Generate.ToolStep | index.js:643-664 | the step hangs exactly when the setting is nullish or `false`; otherwise it runs the tool with the setting's words followed by the out flag and the file twice |
| Generate.OptimizeImage | index.js:634-691 | by lower-cased extension: `.png` uses optipng with `-out`, `.jpg`/`.jpeg` use jpegtran with `-outfile`, and every other extension runs nothing |
| Generate.OptimizerArguments | index.js:643-674 | when a tool runs, its last three arguments are the out flag and the file twice |
| Generate.HangsExactly | index.js:642-688 | the optimizer never resolves exactly for a png target with optipng off or a jpeg target with jpegtran off |
| Generate.GenerateImage | index.js:520-545 | a non-string resolution throws; a failed directory creation or a missing source ends only that job; otherwise the job is resized with the command `ResizeImage` builds for it, and it is optimized exactly when wanted |
| Generate.StallsExactly | index.js:527-537 | a job fails to settle exactly when it gets past directory, source and resize, wants optimization, and its optimizer hangs |
| Generate.Chain | index.js:493-498 | the run attempts a prefix of the jobs; every attempted job but the last continues; the chain stops early only after a job that does not continue; it settles exactly when every attempted job settles |
| Generate.Plan | index.js:493-498 | each job's outcome is decided from that job alone |
| Generate.GenerateImages | index.js:480-511 | the outcomes are a prefix of the planned ones; every attempted job but the last continues; the chain stops early only after a job that does not continue; every job is attempted exactly when all but the last continue; the run settles exactly when every attempted job settles |
| Params.LastFlagged | index.js:90-119 | the last value position before `n` whose preceding flag is in the set, and no later one has such a flag |
| Params.ReadParameters | index.js:88-120 | the scan over argv gives, for each setting, the value after its last flag at an odd position from 3 on, or the default |
| Params.ReadPosition | index.js:92-118 | reading one more position of argv gives the reference reading of the longer prefix |
| Params.TagsFlagExample | index.js:107-110 | `node index.js --tags web` selects the tags `["web"]` and keeps `config.json` |
| Params.ShiftedFlagIgnored | index.js:92 | a flag at an even value position is not read |
| Pipeline.Run | index.js:749-768 | a run aborts exactly when some tags are not a string, stalls exactly when otherwise a selected entry names no alias, and otherwise plans copies of selected entries through the job chain |
| Pipeline.RunJobs | index.js:749-768 | a run that reaches generation runs the gathered jobs of its tag-selected entries, and as a set exactly the jobs those entries resolve to |
| Pipeline.CommentsNeverSelected | index.js:293 | every job of a run copies an object entry of the configuration |
| Pipeline.NoAliasesStall | index.js:391-394 | without aliases, a run whose tags select any entry never settles |

## Left out

- Configuration loading (`configure`, `configureWithData`, `configFileExists`, `configLocalFileExists`, `readConfig`, `readConfigLocal`): file I/O, `JSON.parse` and a shallow merge of untyped JSON. `Pipeline.Run` takes the merged configuration as its input. The defaulting slips in `configure` and `configureWithData` are not modelled either: the config file and the tags fall back to the local config file's name.
- Console output (`display`, progress messages and the empty-job-list message): it has no effect on the result.
- ImageMagick calls (`quality`, the dynamic option operations, `resize`, `resizeExact`, `write`) and the empty-file placeholder written before the resize: the model records the command, not its execution. It treats a write error as success, as the tool does.
- `execFile` of optipng and jpegtran and their exit status: only the tool and the argument list are modelled. The existence check before optimizing has no effect on the decision and is left out.
- `mkdirp`, `fs.exists` and the glob library: these are oracles passed in as parameters. Glob's matching rules and its `root` option are not modelled.
- `path.normalize`: treated as the identity, on POSIX paths with `/` as the separator. Windows paths are not modelled. The backslash-to-slash conversion of the source pattern and of the glob's working directory is modelled (`Expand.SourcePattern`, `Expand.GlobCwd`).
- Q promise concurrency: the tool concatenates results across variants and across entries in completion order. The model uses declaration order.
- Generate.Lookup: options are a list of name/value pairs in insertion order. The JavaScript rule that integer-like keys are listed first in `Object.keys` is not modelled.
- Numbers are integers. Floating-point values and string-to-number conversion beyond zero detection are not modelled.
- Js.Lower: lower-cases ASCII letters only, not the full Unicode case mapping.
- Arrays as entries of `images` or `aliases`: `_.isObject` keeps them, after which the tool throws (`split` of an undefined `tags` aborts the run; `split` of an undefined alias path aborts preparation). `Config.Entry` has only objects and primitive comments. Arrays or objects as field values (`optimize: []`, `proportional: ["true"]`), which take part in JavaScript's loose comparisons, are not modelled either: `Js.Value` holds primitives only.
- Entries whose path, alias name or alias path fields are not strings, and option values nested deeper than a list, are not modelled.
- Failures thrown inside ImageMagick operations other than the option warning are not modelled.
- `settings.ALIASES` and the commented-out `--alias` flag: the tool never uses them.
- Js.ReplaceAll: the contract states the unchanged cases; what the replacement does in general is given by the `Split`/`Join` definitions and `SplitJoin`.
- Strings are sequences of Unicode scalar values, while JavaScript strings are sequences of UTF-16 code units. `split("")` therefore differs on characters outside the Basic Multilingual Plane, which the tool would cut into two surrogate halves.
- Generate.StepOf: `Fs.hasOperation` stands for `typeof im[name] != "undefined"`. A property of ImageMagick's object that exists but is not a function makes `.apply` throw, and the tool warns about that option; the model treats every existing property as an operation.

=== FILE: aliases.dfy ===
/** Path aliases: named textual substitutions (`{"name": "@app", "path": "src/app"}`)
    applied to source and target patterns, and the one-pass preparation that
    resolves aliases mentioned inside other aliases' paths (`prepareConfigs`). */
module Aliases {
  import opened Js
  import opened Common

  datatype Alias = Alias(name: string, path: string)

  /** Rewrites `s` by every alias of `table` in table order, each one as
      `s.split(name).join(path)`. */
  function ApplyAliases(s: string, table: seq<Alias>): string
    decreases |table|
  {
    if table == [] then s
    else ApplyAliases(ReplaceAll(s, table[0].name, table[0].path), table[1..])
  }

  /** Applying two tables one after the other is applying their concatenation. */
  lemma {:induction false} ApplyAliasesAppend(s: string, t1: seq<Alias>, t2: seq<Alias>)
    ensures ApplyAliases(s, t1 + t2) == ApplyAliases(ApplyAliases(s, t1), t2)
    decreases |t1|
  {
    if t1 == [] {
      assert t1 + t2 == t2;
    } else {
      assert (t1 + t2)[1..] == t1[1..] + t2;
      ApplyAliasesAppend(ReplaceAll(s, t1[0].name, t1[0].path), t1[1..], t2);
    }
  }

  /** A table none of whose names occurs in `s` leaves `s` unchanged. */
  lemma {:induction false} ApplyAliasesAbsent(s: string, table: seq<Alias>)
    requires forall i :: 0 <= i < |table| ==> IndexOf(s, table[i].name) == -1
    ensures ApplyAliases(s, table) == s
    decreases |table|
  {
    if table != [] {
      assert ReplaceAll(s, table[0].name, table[0].path) == s;
      ApplyAliasesAbsent(s, table[1..]);
    }
  }

  /** The step in which entry `i` meets itself: its own name is replaced by its
      current path. This is the identity unless the path mentions its own name,
      in which case every mention is replaced by the whole path. */
  function SelfStep(name: string, current: string): string {
    ReplaceAll(current, name, current)
  }

  /** The reference result of alias preparation, entry by entry: entry `n` keeps
      its name; its path is rewritten by the already prepared entries before it,
      then by itself (`SelfStep`), then by the still original entries after it. */
  function PreparedPrefix(aliases: seq<Alias>, n: nat): (r: seq<Alias>)
    requires n <= |aliases|
    ensures |r| == n
    ensures forall i :: 0 <= i < n ==> r[i].name == aliases[i].name
    decreases n
  {
    if n == 0 then []
    else
      var before := PreparedPrefix(aliases, n - 1);
      var own := ApplyAliases(aliases[n - 1].path, before);
      var path := ApplyAliases(SelfStep(aliases[n - 1].name, own), aliases[n..]);
      before + [Alias(aliases[n - 1].name, path)]
  }

  function Prepared(aliases: seq<Alias>): (r: seq<Alias>)
    ensures |r| == |aliases|
    ensures forall i :: 0 <= i < |r| ==> r[i].name == aliases[i].name
  {
    PreparedPrefix(aliases, |aliases|)
  }

  /** Path of entry `i` after the first `j` steps of its rewriting pass. */
  function PartialPath(aliases: seq<Alias>, i: nat, j: nat): string
    requires i < |aliases| && j <= |aliases|
  {
    var before := PreparedPrefix(aliases, i);
    if j <= i then ApplyAliases(aliases[i].path, before[..j])
    else
      var own := ApplyAliases(aliases[i].path, before);
      ApplyAliases(SelfStep(aliases[i].name, own), aliases[i + 1..j])
  }

  lemma ApplyOneMore(s: string, table: seq<Alias>, a: Alias)
    ensures ApplyAliases(s, table + [a]) == ReplaceAll(ApplyAliases(s, table), a.name, a.path)
  {
    ApplyAliasesAppend(s, table, [a]);
    assert [a][1..] == [];
  }

  lemma SliceSnoc<T>(s: seq<T>, a: nat, b: nat)
    requires a <= b < |s|
    ensures s[a..b + 1] == s[a..b] + [s[b]]
  {
  }

  lemma PartialPathStep(aliases: seq<Alias>, i: nat, j: nat, current: seq<Alias>)
    requires i < |aliases| && j < |aliases| == |current|
    requires current[..i] == PreparedPrefix(aliases, i)
    requires current[i + 1..] == aliases[i + 1..]
    requires current[i] == Alias(aliases[i].name, PartialPath(aliases, i, j))
    ensures ReplaceAll(current[i].path, current[j].name, current[j].path) == PartialPath(aliases, i, j + 1)
  {
    if j < i {
      StepBefore(aliases, i, j, current);
    } else if j == i {
      StepSelf(aliases, i, current);
    } else {
      StepAfter(aliases, i, j, current);
    }
  }

  lemma StepBefore(aliases: seq<Alias>, i: nat, j: nat, current: seq<Alias>)
    requires j < i < |aliases| == |current|
    requires current[..i] == PreparedPrefix(aliases, i)
    requires current[i].path == PartialPath(aliases, i, j)
    ensures ReplaceAll(current[i].path, current[j].name, current[j].path) == PartialPath(aliases, i, j + 1)
  {
    var before := PreparedPrefix(aliases, i);
    assert current[j] == before[j];
    SliceSnoc(before, 0, j);
    ApplyOneMore(aliases[i].path, before[..j], before[j]);
  }

  lemma StepSelf(aliases: seq<Alias>, i: nat, current: seq<Alias>)
    requires i < |aliases| == |current|
    requires current[i] == Alias(aliases[i].name, PartialPath(aliases, i, i))
    ensures ReplaceAll(current[i].path, current[i].name, current[i].path) == PartialPath(aliases, i, i + 1)
  {
    var before := PreparedPrefix(aliases, i);
    var own := ApplyAliases(aliases[i].path, before);
    assert before[..i] == before;
    assert current[i].path == own;
    assert aliases[i + 1..i + 1] == [];
    assert PartialPath(aliases, i, i + 1) == ApplyAliases(SelfStep(aliases[i].name, own), []);
  }

  lemma StepAfter(aliases: seq<Alias>, i: nat, j: nat, current: seq<Alias>)
    requires i < j < |aliases| == |current|
    requires current[i + 1..] == aliases[i + 1..]
    requires current[i].path == PartialPath(aliases, i, j)
    ensures ReplaceAll(current[i].path, current[j].name, current[j].path) == PartialPath(aliases, i, j + 1)
  {
    var x := SelfStep(aliases[i].name, ApplyAliases(aliases[i].path, PreparedPrefix(aliases, i)));
    assert current[j] == current[i + 1..][j - i - 1] == aliases[j];
    SliceSnoc(aliases, i + 1, j);
    ApplyOneMore(x, aliases[i + 1..j], aliases[j]);
  }

  lemma EntryDone(aliases: seq<Alias>, i: nat, j: nat, current: seq<Alias>)
    requires i < |aliases| == |current| == j
    requires current[..i] == PreparedPrefix(aliases, i)
    requires current[i] == Alias(aliases[i].name, PartialPath(aliases, i, j))
    ensures current[..i + 1] == PreparedPrefix(aliases, i + 1)
  {
    var before := PreparedPrefix(aliases, i);
    var own := ApplyAliases(aliases[i].path, before);
    var path := ApplyAliases(SelfStep(aliases[i].name, own), aliases[i + 1..]);
    assert aliases[i + 1..j] == aliases[i + 1..];
    assert PartialPath(aliases, i, j) == path;
    assert PreparedPrefix(aliases, i + 1) == before + [Alias(aliases[i].name, path)];
    SliceSnoc(current, 0, i);
  }

  /** `prepareConfigs`' nested loop, in place: for each index `i`, the path of
      entry `i` is rewritten by every entry `j` in list order, using the entries'
      current values: entries before `i` are already prepared, entry `i` is its
      own partly rewritten self, and entries after `i` are still original. One
      pass, no iteration to a fixed point. */
  method PrepareAliases(aliases: seq<Alias>) returns (prepared: seq<Alias>)
    ensures prepared == Prepared(aliases)
  {
    prepared := aliases;
    var i := 0;
    while i < |prepared|
      invariant 0 <= i <= |prepared| == |aliases|
      invariant prepared[..i] == PreparedPrefix(aliases, i)
      invariant prepared[i..] == aliases[i..]
    {
      prepared := RewriteEntry(aliases, i, prepared);
      i := i + 1;
    }
  }

  /** The inner loop of `PrepareAliases` for entry `i`: the entry's path is
      rewritten by every entry in list order and written back in place. */
  method RewriteEntry(aliases: seq<Alias>, i: nat, current: seq<Alias>) returns (next: seq<Alias>)
    requires i < |aliases| == |current|
    requires current[..i] == PreparedPrefix(aliases, i)
    requires current[i..] == aliases[i..]
    ensures |next| == |aliases|
    ensures next[..i + 1] == PreparedPrefix(aliases, i + 1)
    ensures next[i + 1..] == aliases[i + 1..]
  {
    var path := RewritePath(aliases, i, current);
    next := current[i := Alias(aliases[i].name, path)];
    UpdateKeepsRest(aliases, i, current, Alias(aliases[i].name, path));
    EntryDone(aliases, i, |aliases|, next);
  }

  /** The list as the outer loop finds it at entry `i`: the entries before
      `i` prepared, entry `i` and those after it original. */
  predicate Midway(aliases: seq<Alias>, i: nat, current: seq<Alias>) {
    i < |aliases| == |current|
    && current[..i] == PreparedPrefix(aliases, i)
    && current[i..] == aliases[i..]
  }

  /** The path entry `i` ends with: the inner loop runs `RewriteStep` for every
      entry in list order. Entry `i` is written back after every step, so when
      the loop reaches `j == i` it reads the entry's partly rewritten path. */
  method RewritePath(aliases: seq<Alias>, i: nat, current: seq<Alias>) returns (path: string)
    requires Midway(aliases, i, current)
    ensures path == PartialPath(aliases, i, |aliases|)
  {
    StartPath(aliases, i);
    var n := |aliases|;
    var step := (j: nat, p: string) => if j < n then RewriteStep(current, i, j, p) else p;
    var trace := (j: nat) => if j <= n then PartialPath(aliases, i, j) else [];
    forall j: nat | j < n
      ensures step(j, trace(j)) == trace(j + 1)
    {
      RewriteStepAdvances(aliases, i, j, current, trace(j));
    }
    path := Iterate(n, aliases[i].path, step, trace);
  }

  /** Step `j` of the inner loop for entry `i`: entry `i`'s path, last written
      back as `path`, is split by the name of entry `j` and joined with its
      path, entry `j` read from the list as it stands after that write-back. */
  function RewriteStep(current: seq<Alias>, i: nat, j: nat, path: string): string
    requires i < |current| && j < |current|
  {
    var written := current[i := Alias(current[i].name, path)];
    ReplaceAll(path, written[j].name, written[j].path)
  }

  /** Before the inner loop, entry `i` has its original path. */
  lemma StartPath(aliases: seq<Alias>, i: nat)
    requires i < |aliases|
    ensures PartialPath(aliases, i, 0) == aliases[i].path
  {
    assert PreparedPrefix(aliases, i)[..0] == [];
  }

  /** One step of the inner loop advances entry `i` by exactly one entry of the
      table it is rewritten with. */
  lemma RewriteStepAdvances(aliases: seq<Alias>, i: nat, j: nat, current: seq<Alias>, path: string)
    requires Midway(aliases, i, current) && j < |aliases|
    requires path == PartialPath(aliases, i, j)
    ensures RewriteStep(current, i, j, path) == PartialPath(aliases, i, j + 1)
  {
    assert current[i] == current[i..][0] == aliases[i];
    var written := current[i := Alias(aliases[i].name, path)];
    UpdateKeepsRest(aliases, i, current, Alias(aliases[i].name, path));
    PartialPathStep(aliases, i, j, written);
  }

  /** Writing entry `i` leaves the prepared entries before it and the original
      entries after it as they were. */
  lemma UpdateKeepsRest(aliases: seq<Alias>, i: nat, current: seq<Alias>, a: Alias)
    requires i < |aliases| == |current|
    requires current[..i] == PreparedPrefix(aliases, i)
    requires current[i..] == aliases[i..]
    ensures current[i := a][..i] == PreparedPrefix(aliases, i)
    ensures current[i := a][i + 1..] == aliases[i + 1..]
  {
    assert current[i := a][..i] == current[..i];
    assert current[i + 1..] == current[i..][1..];
  }

  /** One pass does not reach a fixed point: with `A -> x`, `B -> C`, `C -> A`,
      entry B becomes "A" (its `C` is replaced by C's original path), which still
      names alias A; preparing once more would turn it into "x". */
  lemma OnePassIsNotAFixedPoint()
    ensures var prepared := Prepared([Alias("A", "x"), Alias("B", "C"), Alias("C", "A")]);
            prepared == [Alias("A", "x"), Alias("B", "A"), Alias("C", "x")]
            && IndexOf(prepared[1].path, prepared[0].name) == 0
            && Prepared(prepared)[1].path == "x"
  {
    FirstPass();
    Itself("A", "x");
    SecondPass();
  }

  lemma FirstPass()
    ensures Prepared([Alias("A", "x"), Alias("B", "C"), Alias("C", "A")])
         == [Alias("A", "x"), Alias("B", "A"), Alias("C", "x")]
  {
    var a := [Alias("A", "x"), Alias("B", "C"), Alias("C", "A")];
    FirstPassEntryA(a);
    FirstPassEntryB(a);
    FirstPassEntryC(a);
  }

  lemma FirstPassEntryA(a: seq<Alias>)
    requires a == [Alias("A", "x"), Alias("B", "C"), Alias("C", "A")]
    ensures PreparedPrefix(a, 1) == [Alias("A", "x")]
  {
    Unrelated("x", "A"); Unrelated("x", "B"); Unrelated("x", "C");
    assert SelfStep("A", ApplyAliases("x", [])) == "x";
    ApplyAliasesUnchanged("x", a[1..]);
  }

  lemma FirstPassEntryB(a: seq<Alias>)
    requires a == [Alias("A", "x"), Alias("B", "C"), Alias("C", "A")]
    requires PreparedPrefix(a, 1) == [Alias("A", "x")]
    ensures PreparedPrefix(a, 2) == [Alias("A", "x"), Alias("B", "A")]
  {
    Unrelated("C", "A"); Unrelated("C", "B");
    Itself("C", "A");
    assert ApplyAliases("C", [Alias("A", "x")]) == "C";
    assert ApplyAliases("C", a[2..]) == "A";
  }

  lemma FirstPassEntryC(a: seq<Alias>)
    requires a == [Alias("A", "x"), Alias("B", "C"), Alias("C", "A")]
    requires PreparedPrefix(a, 2) == [Alias("A", "x"), Alias("B", "A")]
    ensures PreparedPrefix(a, 3) == [Alias("A", "x"), Alias("B", "A"), Alias("C", "x")]
  {
    Itself("A", "x"); Unrelated("x", "B"); Unrelated("x", "C");
    var before := PreparedPrefix(a, 2);
    ApplyAliasesUnchanged("x", before[1..]);
    assert ApplyAliases("A", before) == "x";
    assert SelfStep("C", "x") == "x";
    assert ApplyAliases("x", a[3..]) == "x";
  }

  /** A table none of whose entries changes `s` leaves `s` alone. */
  lemma {:induction false} ApplyAliasesUnchanged(s: string, table: seq<Alias>)
    requires forall k :: 0 <= k < |table| ==> ReplaceAll(s, table[k].name, table[k].path) == s
    ensures ApplyAliases(s, table) == s
    decreases |table|
  {
    if table != [] {
      assert ReplaceAll(s, table[0].name, table[0].path) == s;
      assert forall k :: 0 <= k < |table| - 1 ==> table[1..][k] == table[k + 1];
      ApplyAliasesUnchanged(s, table[1..]);
    }
  }

  lemma SecondPass()
    ensures Prepared([Alias("A", "x"), Alias("B", "A"), Alias("C", "x")])[1].path == "x"
  {
    var p := [Alias("A", "x"), Alias("B", "A"), Alias("C", "x")];
    Unrelated("x", "A"); Unrelated("x", "B"); Unrelated("x", "C");
    Itself("A", "x");
    assert PreparedPrefix(p, 1) == [Alias("A", "x")];
    assert ApplyAliases("A", [Alias("A", "x")]) == "x";
    assert ApplyAliases("x", [Alias("C", "x")]) == "x";
    var before := PreparedPrefix(p, 2);
    assert before[1].path == "x";
    var own := ApplyAliases(p[2].path, before);
    var last := Alias(p[2].name, ApplyAliases(SelfStep(p[2].name, own), p[3..]));
    assert Prepared(p) == before + [last];
  }

  /** A one-character string that differs from a one-character name is left alone. */
  lemma Unrelated(s: string, name: string)
    requires |s| == 1 && |name| == 1 && s != name
    ensures IndexOf(s, name) == -1
    ensures forall path :: ReplaceAll(s, name, path) == s
  {
    assert IndexOf(s[1..], name) == -1;
  }

  /** A one-character string equal to the name becomes the replacement. */
  lemma Itself(name: string, path: string)
    requires |name| == 1
    ensures IndexOf(name, name) == 0
    ensures ReplaceAll(name, name, path) == path
  {
    assert name[..1] == name && name[1..] == [];
    assert SplitOn([], name) == [[]];
    assert SplitOn(name, name) == [[]] + SplitOn([], name);
    assert Join([[], []], path) == path;
  }

  /** An alias whose path mentions its own name has every mention replaced by
      the whole path when it meets itself: `A -> A/x` becomes `A -> A/x/x`. */
  lemma SelfReferenceGrows()
    ensures Prepared([Alias("A", "A/x")]) == [Alias("A", "A/x/x")]
  {
    var s := "A/x";
    assert s[..1] == "A";
    assert IndexOf(s, "A") == 0;
    assert s[1..] == "/x";
    Unrelated("x", "A");
    assert IndexOf("x", "A") == -1;
    assert "/x"[1..] == "x";
    assert IndexOf("/x", "A") == -1;
    assert SplitOn("/x", "A") == ["/x"];
    assert SplitOn(s, "A") == ["", "/x"];
    assert Join(["", "/x"], s) == "A/x/x";
    assert SelfStep("A", s) == "A/x/x";
    assert ApplyAliases(s, []) == s;
    assert ApplyAliases("A/x/x", []) == "A/x/x";
  }
}

=== FILE: common.dfy ===
/** Small shared vocabulary: an optional value and the subsequence relation. */
module Common {

  /** A value that may be absent (`null`/`undefined` in the source). */
  datatype Option<+T> = None | Some(value: T) {
    function GetOr(default: T): T {
      match this
      case Some(v) => v
      case None => default
    }
  }

  /** `a` is obtained from `b` by deleting elements, keeping the order of the rest. */
  predicate IsSubseq<T(==)>(a: seq<T>, b: seq<T>)
    decreases |b|
  {
    if a == [] then true
    else if b == [] then false
    else if a[0] == b[0] then IsSubseq(a[1..], b[1..])
    else IsSubseq(a, b[1..])
  }

  lemma {:induction false} SubseqMembers<T>(a: seq<T>, b: seq<T>)
    requires IsSubseq(a, b)
    ensures forall x :: x in a ==> x in b
    decreases |b|
  {
    if a != [] && b != [] {
      if a[0] == b[0] {
        SubseqMembers(a[1..], b[1..]);
        forall x | x in a ensures x in b {
          if x != a[0] { assert x in a[1..]; }
        }
      } else {
        SubseqMembers(a, b[1..]);
      }
    }
  }

  lemma {:induction false} SubseqRefl<T>(a: seq<T>)
    ensures IsSubseq(a, a)
    decreases |a|
  {
    if a != [] { SubseqRefl(a[1..]); }
  }

  /** Dropping the first kept element keeps a subsequence. */
  lemma {:induction false} SubseqTail<T>(a: seq<T>, b: seq<T>)
    requires a != [] && IsSubseq(a, b)
    ensures IsSubseq(a[1..], b)
    decreases |b|, 0
  {
    if a[0] == b[0] {
      SubseqSkip(b[0], a[1..], b[1..]);
    } else {
      SubseqTail(a, b[1..]);
      SubseqSkip(b[0], a[1..], b[1..]);
    }
  }

  /** An extra element in front of the longer sequence keeps a subsequence. */
  lemma {:induction false} SubseqSkip<T>(x: T, a: seq<T>, b: seq<T>)
    requires IsSubseq(a, b)
    ensures IsSubseq(a, [x] + b)
    decreases |b|, 1
  {
    assert ([x] + b)[1..] == b;
    if a != [] && a[0] == x {
      SubseqTail(a, b);
    }
  }

  /** The same element in front of both keeps a subsequence. */
  lemma SubseqCons<T>(x: T, a: seq<T>, b: seq<T>)
    requires IsSubseq(a, b)
    ensures IsSubseq([x] + a, [x] + b)
  {
    assert ([x] + a)[1..] == a;
    assert ([x] + b)[1..] == b;
  }

  /** A sequence is its part before `k`, its element at `k` and the rest. */
  lemma SplitAround<T>(s: seq<T>, k: nat)
    requires k < |s|
    ensures s == s[..k] + ([s[k]] + s[k + 1..])
  {
  }

  /** The concatenation of `f` of each element, in order. */
  function Flatten<A, B>(s: seq<A>, f: A -> seq<B>): (r: seq<B>)
    ensures forall x :: x in r ==> exists i :: 0 <= i < |s| && x in f(s[i])
    decreases |s|
  {
    if s == [] then []
    else
      var rest := Flatten(s[1..], f);
      assert forall i :: 1 <= i < |s| ==> s[i] == s[1..][i - 1];
      f(s[0]) + rest
  }

  /** Flattening distributes over concatenation. */
  lemma {:induction false} FlattenAppend<A, B>(s1: seq<A>, s2: seq<A>, f: A -> seq<B>)
    ensures Flatten(s1 + s2, f) == Flatten(s1, f) + Flatten(s2, f)
    decreases |s1|
  {
    if s1 == [] {
      assert s1 + s2 == s2;
    } else {
      assert (s1 + s2)[0] == s1[0] && (s1 + s2)[1..] == s1[1..] + s2;
      FlattenAppend(s1[1..], s2, f);
    }
  }

  /** A counted loop, `for (j = 0; j < n; j++) x = step(j, x)`: when every step
      carries `trace(j)` to `trace(j + 1)`, the loop ends at `trace(n)`. */
  method Iterate<T>(n: nat, x: T, step: (nat, T) -> T, trace: nat -> T) returns (r: T)
    requires x == trace(0)
    requires forall j: nat :: j < n ==> step(j, trace(j)) == trace(j + 1)
    ensures r == trace(n)
  {
    r := x;
    var j := 0;
    while j < n
      invariant j <= n && r == trace(j)
    {
      r := step(j, r);
      j := j + 1;
    }
  }

  /** A filter that throws on the first element that is not `ok`: `None` when
      some element is not `ok`, otherwise the elements that `keep` holds for,
      in order and with their multiplicities. */
  function FilterOrFail<T(==, !new)>(s: seq<T>, ok: T -> bool, keep: T -> bool): (r: Option<seq<T>>)
    ensures r.None? <==> exists i :: 0 <= i < |s| && !ok(s[i])
    ensures r.Some? ==> forall x :: multiset(r.value)[x] == if keep(x) then multiset(s)[x] else 0
    decreases |s|
  {
    if s == [] then Some([])
    else if !ok(s[0]) then None
    else
      match FilterOrFail(s[1..], ok, keep)
      case None => None
      case Some(rest) =>
        assert s == [s[0]] + s[1..];
        if keep(s[0]) then Some([s[0]] + rest) else Some(rest)
  }

  /** A filter that did not throw keeps the order of what it keeps. */
  lemma {:induction false} FilterOrFailKeepsOrder<T(!new)>(s: seq<T>, ok: T -> bool, keep: T -> bool)
    ensures var r := FilterOrFail(s, ok, keep);
      r.Some? ==> IsSubseq(r.value, s)
    decreases |s|
  {
    if s != [] && ok(s[0]) {
      var rest := FilterOrFail(s[1..], ok, keep);
      FilterOrFailKeepsOrder(s[1..], ok, keep);
      if rest.Some? {
        if keep(s[0]) {
          SubseqCons(s[0], rest.value, s[1..]);
        } else {
          SubseqSkip(s[0], rest.value, s[1..]);
        }
        assert [s[0]] + s[1..] == s;
      }
    }
  }

  /** What a filter that did not throw holds: exactly the elements `keep` holds for. */
  lemma FilterOrFailMembers<T(!new)>(s: seq<T>, ok: T -> bool, keep: T -> bool)
    ensures var r := FilterOrFail(s, ok, keep);
      r.Some? ==> forall x :: x in r.value <==> x in s && keep(x)
  {
    var r := FilterOrFail(s, ok, keep);
    if r.Some? {
      forall x
        ensures x in r.value <==> x in s && keep(x)
      {
        assert x in r.value <==> x in multiset(r.value);
        assert x in s <==> x in multiset(s);
      }
    }
  }

  /** The concatenation of `f` of each element, in order, or `None` when `f`
      has no value for some element. */
  function FlattenOrFail<A, B>(s: seq<A>, f: A -> Option<seq<B>>): (r: Option<seq<B>>)
    ensures r.None? <==> exists i :: 0 <= i < |s| && f(s[i]).None?
    decreases |s|
  {
    if s == [] then Some([])
    else
      var rest := FlattenOrFail(s[1..], f);
      assert forall i :: 1 <= i < |s| ==> s[i] == s[1..][i - 1];
      match f(s[0])
      case None => None
      case Some(first) => if rest.None? then None else Some(first + rest.value)
  }

  /** Flattening with failure distributes over concatenation: the halves'
      values are concatenated, and the whole fails when either half fails. */
  lemma {:induction false} FlattenOrFailAppend<A, B>(s1: seq<A>, s2: seq<A>, f: A -> Option<seq<B>>)
    ensures FlattenOrFail(s1 + s2, f) ==
      if FlattenOrFail(s1, f).Some? && FlattenOrFail(s2, f).Some?
      then Some(FlattenOrFail(s1, f).value + FlattenOrFail(s2, f).value)
      else None
    decreases |s1|
  {
    if s1 == [] {
      assert s1 + s2 == s2;
      if FlattenOrFail(s2, f).Some? {
        assert [] + FlattenOrFail(s2, f).value == FlattenOrFail(s2, f).value;
      }
    } else {
      assert (s1 + s2)[0] == s1[0] && (s1 + s2)[1..] == s1[1..] + s2;
      FlattenOrFailAppend(s1[1..], s2, f);
      var tail1 := FlattenOrFail(s1[1..], f);
      var whole2 := FlattenOrFail(s2, f);
      if f(s1[0]).Some? && tail1.Some? && whole2.Some? {
        var first := f(s1[0]).value;
        assert first + (tail1.value + whole2.value) == (first + tail1.value) + whole2.value;
      }
    }
  }

  /** A single element flattens to its own result. */
  lemma FlattenOrFailOne<A, B>(x: A, f: A -> Option<seq<B>>)
    ensures FlattenOrFail([x], f) == f(x)
  {
    assert [x][1..] == [];
    if f(x).Some? {
      assert f(x).value + [] == f(x).value;
    }
  }

  /** `y` is among the values `f` gives for `x`. */
  ghost predicate Produces<A, B>(f: A -> Option<seq<B>>, x: A, y: B) {
    f(x).Some? && y in f(x).value
  }

  /** What a flattening that did not fail holds: exactly the values of its
      elements' results. */
  lemma {:induction false} FlattenOrFailMembers<A, B>(s: seq<A>, f: A -> Option<seq<B>>)
    requires FlattenOrFail(s, f).Some?
    ensures forall y :: y in FlattenOrFail(s, f).value <==> exists x :: x in s && Produces(f, x, y)
    decreases |s|
  {
    if s != [] {
      FlattenOrFailMembers(s[1..], f);
      var first := f(s[0]).value;
      var rest := FlattenOrFail(s[1..], f).value;
      assert FlattenOrFail(s, f).value == first + rest;
      forall y
        ensures y in first + rest <==> exists x :: x in s && Produces(f, x, y)
      {
        if y in first {
          assert Produces(f, s[0], y);
        }
        if y in rest {
          var x :| x in s[1..] && Produces(f, x, y);
          assert x in s;
        }
        if exists x :: x in s && Produces(f, x, y) {
          var x :| x in s && Produces(f, x, y);
          if x != s[0] {
            assert x in s[1..];
          }
        }
      }
    }
  }
}

=== FILE: config.dfy ===
/** The configuration document as the core consumes it, and `prepareConfigs`:
    base-path defaulting, comment removal and alias preparation. */
module Config {
  import opened Common
  import opened Js
  import opened Paths
  import opened Aliases

  /** An entry of the `images` or `aliases` list: an object, or a primitive
      JSON value, which the tool treats as a comment. Arrays, which `_.isObject`
      also keeps, are not entries of this model. */
  datatype Entry<T> = Comment(text: Value) | Item(value: T)

  /** The argument of one `options` operation: an argument list, or a single value. */
  datatype OptionArg = Args(items: seq<Value>) | Scalar(v: Value)

  /** A JSON object from operation name to argument, in key order. */
  type OptionMap = seq<(string, OptionArg)>

  /** One image entry. A resolved job has the same shape, with concrete paths. */
  datatype Image = Image(
    sourcePath: string,
    targetPath: string,
    tags: Value,
    resolution: Value,
    proportional: Value,
    quality: Value,
    optimize: Value,
    options: Option<OptionMap>)

  /** The `optimize` object: settings for optipng and jpegtran (key `jpgtran`). */
  datatype OptimizeSettings = OptimizeSettings(optipng: Value, jpgtran: Value)

  datatype Config = Config(
    basePath: Option<string>,
    aliases: seq<Entry<Alias>>,
    images: seq<Entry<Image>>,
    options: Option<OptionMap>,
    optimize: Option<OptimizeSettings>)

  /** The configuration after `prepareConfigs`. */
  datatype Setup = Setup(
    basePath: string,
    aliases: seq<Alias>,
    images: seq<Image>,
    options: Option<OptionMap>,
    optimize: Option<OptimizeSettings>)

  /** The number of objects in a list. */
  function ItemCount<T>(entries: seq<Entry<T>>): nat
    decreases |entries|
  {
    if entries == [] then 0
    else (if entries[0].Item? then 1 else 0) + ItemCount(entries[1..])
  }

  /** Drops the comments, keeping the objects in order. */
  function Items<T>(entries: seq<Entry<T>>): (r: seq<T>)
    ensures |r| == ItemCount(entries) <= |entries|
    ensures forall i :: 0 <= i < |entries| && entries[i].Item? ==> entries[i].value in r
    ensures forall x :: x in r ==> Item(x) in entries
    decreases |entries|
  {
    if entries == [] then []
    else
      var rest := Items(entries[1..]);
      assert forall x :: x in rest ==> Item(x) in entries[1..];
      if entries[0].Item? then [entries[0].value] + rest else rest
  }

  /** Entry `i` of the list is object `k` of the filtered list, and exactly
      `k` objects precede it. */
  ghost predicate ItemAt<T>(entries: seq<Entry<T>>, k: int, i: int) {
    0 <= i < |entries| && 0 <= k < |Items(entries)|
    && entries[i] == Item(Items(entries)[k]) && ItemCount(entries[..i]) == k
  }

  /** Object `k` of the filtered list is the entry preceded by exactly `k`
      objects: the filter keeps every object, once, in list order. */
  lemma ItemsInOrder<T>(entries: seq<Entry<T>>, k: nat)
    requires k < |Items(entries)|
    ensures exists i :: ItemAt(entries, k, i)
  {
    var i := ItemPosition(entries, k);
  }

  /** Where object `k` of the filtered list sits in the original list. */
  lemma {:induction false} ItemPosition<T>(entries: seq<Entry<T>>, k: nat) returns (i: nat)
    requires k < |Items(entries)|
    ensures ItemAt(entries, k, i)
    decreases |entries|
  {
    var rest := entries[1..];
    var lead := if entries[0].Item? then 1 else 0;
    if lead == 1 && k == 0 {
      i := 0;
      assert entries[..0] == [];
    } else {
      var j := ItemPosition(rest, k - lead);
      i := j + 1;
      assert entries[..i][1..] == rest[..j];
    }
  }

  /** `prepareConfigs`: a missing base path becomes the directory of the config
      file under the working directory; comments are dropped from both lists;
      aliases mentioned in aliases' paths are substituted in one pass. */
  function PrepareConfig(config: Config, cwd: string, configFile: string): (s: Setup)
    ensures config.basePath.Some? ==> s.basePath == config.basePath.value
    ensures config.basePath.None? ==> s.basePath == cwd + [Sep] + Dirname(configFile)
    ensures |s.aliases| == |Items(config.aliases)|
    ensures forall i :: 0 <= i < |s.aliases| ==> s.aliases[i].name == Items(config.aliases)[i].name
    ensures s.aliases == Prepared(Items(config.aliases))
    ensures s.images == Items(config.images)
    ensures s.options == config.options && s.optimize == config.optimize
  {
    var basePath := match config.basePath
      case Some(b) => b
      case None => cwd + [Sep] + Dirname(configFile);
    Setup(basePath, Prepared(Items(config.aliases)), Items(config.images), config.options, config.optimize)
  }
}

=== FILE: dedup.dfy ===
/** Duplicate removal over the jobs of one image entry: jobs whose source files
    share a base name are duplicates, and the one produced last survives. The
    tool reverses the list, keeps the first job per base name (`_.unique` with
    a key function) and reverses again. The removal is defined and proved for
    any key function and used with `Key`. */
module Dedup {
  import opened Common
  import opened Paths
  import opened Config

  /** Jobs are duplicates when their sources have the same base name. */
  function Key(job: Image): string {
    Basename(job.sourcePath)
  }

  function Keys<T>(s: seq<T>, key: T -> string): set<string> {
    set i | 0 <= i < |s| :: key(s[i])
  }

  function Reverse<T>(s: seq<T>): (r: seq<T>)
    ensures |r| == |s|
    ensures forall i :: 0 <= i < |s| ==> r[i] == s[|s| - 1 - i]
    decreases |s|
  {
    if s == [] then [] else Reverse(s[1..]) + [s[0]]
  }

  /** `_.unique(s, false, key)`: walks the list front to back and keeps an
      element when no element kept before it has its key. */
  function UniqueFirst<T>(s: seq<T>, key: T -> string): seq<T>
    decreases |s|
  {
    if s == [] then []
    else
      var kept := UniqueFirst(s[..|s| - 1], key);
      if key(s[|s| - 1]) in Keys(kept, key) then kept else kept + [s[|s| - 1]]
  }

  /** `reverse`, `_.unique`, `reverse` as the tool writes it. It is the
      reference `KeepLast`: exactly the last job per base name, in input order. */
  function DedupByBasename(s: seq<Image>): (r: seq<Image>)
    ensures r == KeepLast(s, Key)
  {
    DedupIsKeepLast(s, Key);
    Reverse(UniqueFirst(Reverse(s), Key))
  }

  /** Position `i` holds the last element with its key. */
  predicate LastOfKey<T>(s: seq<T>, key: T -> string, i: int)
    requires 0 <= i < |s|
  {
    forall j :: i < j < |s| ==> key(s[j]) != key(s[i])
  }

  /** The reference: an element is kept exactly when no later element shares its key. */
  function KeepLast<T>(s: seq<T>, key: T -> string): seq<T>
    decreases |s|
  {
    if s == [] then []
    else if key(s[0]) in Keys(s[1..], key) then KeepLast(s[1..], key)
    else [s[0]] + KeepLast(s[1..], key)
  }

  predicate UniqueKeys<T>(s: seq<T>, key: T -> string) {
    forall i, j :: 0 <= i < j < |s| ==> key(s[i]) != key(s[j])
  }

  lemma KeysCons<T>(x: T, s: seq<T>, key: T -> string)
    ensures Keys([x] + s, key) == {key(x)} + Keys(s, key)
  {
    var t := [x] + s;
    forall k | k in Keys(t, key) ensures k in {key(x)} + Keys(s, key) {
      var i :| 0 <= i < |t| && key(t[i]) == k;
      if i > 0 { assert t[i] == s[i - 1]; }
    }
    forall k | k in Keys(s, key) ensures k in Keys(t, key) {
      var i :| 0 <= i < |s| && key(s[i]) == k;
      assert t[i + 1] == s[i];
    }
    assert t[0] == x;
  }

  lemma KeysFirst<T>(s: seq<T>, key: T -> string)
    requires s != []
    ensures Keys(s, key) == {key(s[0])} + Keys(s[1..], key)
  {
    assert s == [s[0]] + s[1..];
    KeysCons(s[0], s[1..], key);
  }

  lemma KeysSnoc<T>(s: seq<T>, x: T, key: T -> string)
    ensures Keys(s + [x], key) == Keys(s, key) + {key(x)}
  {
    var t := s + [x];
    forall k | k in Keys(t, key) ensures k in Keys(s, key) + {key(x)} {
      var i :| 0 <= i < |t| && key(t[i]) == k;
      if i < |s| { assert t[i] == s[i]; }
    }
    forall k | k in Keys(s, key) ensures k in Keys(t, key) {
      var i :| 0 <= i < |s| && key(s[i]) == k;
      assert t[i] == s[i];
    }
    assert t[|s|] == x;
  }

  lemma {:induction false} KeysReverse<T>(s: seq<T>, key: T -> string)
    ensures Keys(Reverse(s), key) == Keys(s, key)
    decreases |s|
  {
    if s != [] {
      KeysReverse(s[1..], key);
      KeysSnoc(Reverse(s[1..]), s[0], key);
      KeysFirst(s, key);
    }
  }

  /** `_.unique` keeps every key. */
  lemma {:induction false} KeysUniqueFirst<T>(s: seq<T>, key: T -> string)
    ensures Keys(UniqueFirst(s, key), key) == Keys(s, key)
    decreases |s|
  {
    if s != [] {
      var init := s[..|s| - 1];
      KeysUniqueFirst(init, key);
      KeysSnoc(UniqueFirst(init, key), s[|s| - 1], key);
      assert s == init + [s[|s| - 1]];
      KeysSnoc(init, s[|s| - 1], key);
    }
  }

  lemma ReverseSnoc<T>(s: seq<T>, x: T)
    ensures Reverse(s + [x]) == [x] + Reverse(s)
  {
  }

  lemma ReverseCons<T>(x: T, s: seq<T>)
    ensures Reverse([x] + s) == Reverse(s) + [x]
  {
    assert ([x] + s)[1..] == s;
  }

  lemma {:induction false} DedupIsKeepLast<T>(s: seq<T>, key: T -> string)
    ensures Reverse(UniqueFirst(Reverse(s), key)) == KeepLast(s, key)
    decreases |s|
  {
    if s != [] {
      var h, t := s[0], s[1..];
      assert s == [h] + t;
      ReverseCons(h, t);
      var rt := Reverse(t);
      var p := UniqueFirst(rt, key);
      assert (rt + [h])[..|rt + [h]| - 1] == rt;
      assert UniqueFirst(rt + [h], key) == if key(h) in Keys(p, key) then p else p + [h];
      KeysUniqueFirst(rt, key);
      KeysReverse(t, key);
      DedupIsKeepLast(t, key);
      if key(h) !in Keys(p, key) {
        ReverseSnoc(p, h);
      }
    }
  }

  /** The kept elements appear in the input, in the same relative order. */
  lemma {:induction false} KeepLastSubseq<T>(s: seq<T>, key: T -> string)
    ensures IsSubseq(KeepLast(s, key), s)
    decreases |s|
  {
    if s != [] {
      var t := s[1..];
      KeepLastSubseq(t, key);
      if key(s[0]) in Keys(t, key) {
        SubseqSkip(s[0], KeepLast(t, key), t);
      } else {
        SubseqCons(s[0], KeepLast(t, key), t);
      }
      assert [s[0]] + t == s;
    }
  }

  /** Every key of the input survives. */
  lemma {:induction false} KeepLastKeys<T>(s: seq<T>, key: T -> string)
    ensures Keys(KeepLast(s, key), key) == Keys(s, key)
    decreases |s|
  {
    if s != [] {
      var t := s[1..];
      KeepLastKeys(t, key);
      KeysFirst(s, key);
      if key(s[0]) !in Keys(t, key) {
        KeysCons(s[0], KeepLast(t, key), key);
      }
    }
  }

  lemma UniqueCons<T>(x: T, s: seq<T>, key: T -> string)
    requires UniqueKeys(s, key) && key(x) !in Keys(s, key)
    ensures UniqueKeys([x] + s, key)
  {
    var r := [x] + s;
    forall i, j | 0 <= i < j < |r| ensures key(r[i]) != key(r[j]) {
      assert r[j] == s[j - 1];
      if i > 0 {
        assert r[i] == s[i - 1];
      }
    }
  }

  /** No two kept elements share a key. */
  lemma {:induction false} KeepLastUnique<T>(s: seq<T>, key: T -> string)
    ensures UniqueKeys(KeepLast(s, key), key)
    decreases |s|
  {
    if s != [] {
      KeepLastUnique(s[1..], key);
      if key(s[0]) !in Keys(s[1..], key) {
        KeepLastKeys(s[1..], key);
        UniqueCons(s[0], KeepLast(s[1..], key), key);
      }
    }
  }

  /** An element at the last position of its key is kept. */
  lemma {:induction false} KeepLastKeepsLast<T>(s: seq<T>, key: T -> string, i: nat)
    requires i < |s| && LastOfKey(s, key, i)
    ensures s[i] in KeepLast(s, key)
    decreases |s|
  {
    var t := s[1..];
    if i == 0 {
      assert key(s[0]) !in Keys(t, key) by {
        forall j | 0 <= j < |t| ensures key(t[j]) != key(s[0]) {
          assert t[j] == s[j + 1];
        }
      }
    } else {
      assert t[i - 1] == s[i];
      assert LastOfKey(t, key, i - 1) by {
        forall j | i - 1 < j < |t| ensures key(t[j]) != key(t[i - 1]) {
          assert t[j] == s[j + 1];
        }
      }
      KeepLastKeepsLast(t, key, i - 1);
    }
  }

  /** Every kept element stands at the last position of its key. */
  lemma {:induction false} KeepLastOnlyLast<T>(s: seq<T>, key: T -> string, x: T)
    requires x in KeepLast(s, key)
    ensures exists i :: 0 <= i < |s| && s[i] == x && LastOfKey(s, key, i)
    decreases |s|
  {
    var t := s[1..];
    if x in KeepLast(t, key) {
      KeepLastOnlyLast(t, key, x);
      var i :| 0 <= i < |t| && t[i] == x && LastOfKey(t, key, i);
      assert s[i + 1] == x;
      assert LastOfKey(s, key, i + 1) by {
        forall j | i + 1 < j < |s| ensures key(s[j]) != key(s[i + 1]) {
          assert s[j] == t[j - 1];
        }
      }
    } else {
      assert key(s[0]) !in Keys(t, key) && x == s[0];
      assert LastOfKey(s, key, 0) by {
        forall j | 0 < j < |s| ensures key(s[j]) != key(s[0]) {
          assert s[j] == t[j - 1];
          assert key(t[j - 1]) in Keys(t, key);
        }
      }
    }
  }

  /** An element is kept exactly when it stands at the last position of its key. */
  lemma KeepLastMembers<T>(s: seq<T>, key: T -> string, x: T)
    ensures x in KeepLast(s, key) <==> exists i :: 0 <= i < |s| && s[i] == x && LastOfKey(s, key, i)
  {
    if x in KeepLast(s, key) {
      KeepLastOnlyLast(s, key, x);
    }
    if exists i :: 0 <= i < |s| && s[i] == x && LastOfKey(s, key, i) {
      var i :| 0 <= i < |s| && s[i] == x && LastOfKey(s, key, i);
      KeepLastKeepsLast(s, key, i);
    }
  }

  /** A list without duplicate keys is left as it is. */
  lemma {:induction false} KeepLastOfUnique<T>(s: seq<T>, key: T -> string)
    requires UniqueKeys(s, key)
    ensures KeepLast(s, key) == s
    decreases |s|
  {
    if s != [] {
      var t := s[1..];
      assert UniqueKeys(t, key) by {
        forall i, j | 0 <= i < j < |t| ensures key(t[i]) != key(t[j]) {
          assert t[i] == s[i + 1] && t[j] == s[j + 1];
        }
      }
      KeepLastOfUnique(t, key);
      assert key(s[0]) !in Keys(t, key) by {
        forall j | 0 <= j < |t| ensures key(t[j]) != key(s[0]) {
          assert t[j] == s[j + 1];
        }
      }
      assert s == [s[0]] + t;
    }
  }

  /** Removing duplicates twice is removing them once. */
  lemma DedupIdempotent(s: seq<Image>)
    ensures DedupByBasename(DedupByBasename(s)) == DedupByBasename(s)
  {
    KeepLastUnique(s, Key);
    KeepLastOfUnique(KeepLast(s, Key), Key);
  }

  lemma DistinctPair<T>(b: T, a: T, key: T -> string)
    requires key(b) != key(a)
    ensures KeepLast([b, a], key) == [b, a]
    ensures key(a) in Keys([b, a], key)
  {
    assert [a][1..] == [];
    assert Keys([a][1..], key) == {};
    assert KeepLast([a], key) == [a];
    KeysCons(a, [], key);
    assert [b, a][1..] == [a];
    assert [b, a][1] == a;
  }

  /** The survivors are ordered by each base name's last occurrence: of three
      jobs where the first and third share a base name, the second and third remain. */
  lemma LastOccurrenceOrder(a1: Image, b2: Image, a3: Image)
    requires Key(a1) == Key(a3) && Key(b2) != Key(a3)
    ensures DedupByBasename([a1, b2, a3]) == [b2, a3]
  {
    DistinctPair(b2, a3, Key);
    assert [a1, b2, a3][1..] == [b2, a3];
  }
}

=== FILE: expand.dfy ===
/** Turning image entries into concrete jobs (`resolveImagePaths`,
    `resolveAliasedImagePaths`, `resolveImagePath`): tag selection, the alias
    variants of an entry, the glob expansion of each variant, the rewriting of
    `*.ext` targets and the removal of duplicates. */
module Expand {
  import opened Common
  import opened Js
  import opened Paths
  import opened Aliases
  import opened Config
  import opened Tags
  import opened Dedup

  /** The glob oracle: the matches of a pattern under a working directory, or
      `None` when glob reports an error. */
  type Glob = (string, string) -> Option<seq<string>>

  /** The character class `[a-zA-z0-9]`. The range 'A'..'z' also takes in the
      six characters between 'Z' and 'a': `[`, `\`, `]`, `^`, `_` and the backquote. */
  predicate InClass(c: char) {
    'a' <= c <= 'z' || 'A' <= c <= 'z' || '0' <= c <= '9'
  }

  /** The pattern `\*\.[a-zA-z0-9]+$` matches `t` from position `k` on. */
  predicate StarExtAt(t: string, k: int) {
    0 <= k && k + 2 < |t| && t[k] == '*' && t[k + 1] == '.'
    && forall i :: k + 2 <= i < |t| ==> InClass(t[i])
  }

  /** Length of the longest suffix of class characters. */
  function TrailingRun(t: string): (n: nat)
    ensures n <= |t|
    ensures forall i :: |t| - n <= i < |t| ==> InClass(t[i])
    ensures n < |t| ==> !InClass(t[|t| - n - 1])
    decreases |t|
  {
    if t != [] && InClass(t[|t| - 1]) then 1 + TrailingRun(t[..|t| - 1]) else 0
  }

  /** The longest class suffix has length `n`. */
  lemma TrailingRunIs(t: string, n: nat)
    requires n <= |t|
    requires forall i :: |t| - n <= i < |t| ==> InClass(t[i])
    requires n < |t| ==> !InClass(t[|t| - n - 1])
    ensures TrailingRun(t) == n
  {
  }

  /** The extension a starred target asks for: the match with its '*' removed,
      or `None` when the target does not end in a star extension. The match is
      unique, because neither '*' nor '.' is in the class. */
  function StarExtension(t: string): (r: Option<string>)
    ensures r.Some? ==> StarExtAt(t, |t| - |r.value| - 1) && r.value == t[|t| - |r.value|..]
    ensures forall k :: StarExtAt(t, k) ==> r == Some(t[k + 1..])
  {
    var n := TrailingRun(t);
    if n >= 1 && n + 2 <= |t| && t[|t| - n - 2] == '*' && t[|t| - n - 1] == '.' then
      Some(t[|t| - n - 1..])
    else None
  }

  /** The target of the job made for one match: a starred target becomes the
      target's directory, a separator, the match's stem and the extension. */
  function WildcardTarget(target: string, file: string): string {
    match StarExtension(target)
    case None => target
    case Some(ext) => ParseDir(target) + [Sep] + (ParseName(file) + ext)
  }

  /** A starred target names the file after the match's stem with the
      requested extension. */
  lemma WildcardTargetName(target: string, file: string)
    requires StarExtension(target).Some?
    ensures Basename(WildcardTarget(target, file)) == ParseName(file) + StarExtension(target).value
  {
    var name := ParseName(file) + StarExtension(target).value;
    StarExtensionNoSep(target);
    assert Sep !in name;
    BasenameOfJoin(ParseDir(target), name);
  }

  /** An extension is a dot and class characters, none of which is a separator. */
  lemma StarExtensionNoSep(target: string)
    requires StarExtension(target).Some?
    ensures Sep !in StarExtension(target).value
  {
    var ext := StarExtension(target).value;
    var k := |target| - |ext| - 1;
    assert StarExtAt(target, k);
    assert forall i :: 0 <= i < |ext| ==> ext[i] == target[k + 1 + i];
  }

  lemma StarExtensionExamples()
    ensures StarExtension("out/*.png") == Some(".png")
    ensures StarExtension("out/icon.png") == None
  {
    var t := "out/*.png";
    TrailingRunIs(t, 3);
    assert t[4] == '*' && t[5] == '.';
    assert t[5..] == ".png";
    var u := "out/icon.png";
    TrailingRunIs(u, 3);
    assert u[7] == 'n';
  }

  lemma ParseDirExample(t: string)
    requires t == "out/*.png"
    ensures ParseDir(t) == "out"
  {
    assert TrimTrailingSeps(t) == t;
    LastIndexOfAt(t[1..], Sep, 2);
    assert t[..3] == "out";
  }

  lemma ParseNameExample(f: string)
    requires f == "img/logo.svg"
    ensures ParseName(f) == "logo"
  {
    assert TrimTrailingSeps(f) == f;
    LastIndexOfAt(f, Sep, 3);
    var b := Basename(f);
    assert b == f[4..];
    LastIndexOfAt(b, '.', 4);
    assert b != "..";
    assert b[..4] == "logo";
  }

  /** The starred target "out/\*.png" with the match "img/logo.svg" gives
      "out/logo.png"; the plain target "out/icon.png" is kept as it is. */
  lemma WildcardExample()
    ensures WildcardTarget("out/*.png", "img/logo.svg") == "out/logo.png"
    ensures WildcardTarget("out/icon.png", "img/logo.svg") == "out/icon.png"
  {
    StarExtensionExamples();
    ParseDirExample("out/*.png");
    ParseNameExample("img/logo.svg");
    var ext := StarExtension("out/*.png").value;
    assert WildcardTarget("out/*.png", "img/logo.svg") == "out" + [Sep] + ("logo" + ext);
    LogoTarget();
  }

  lemma LogoTarget()
    ensures "out" + [Sep] + ("logo" + ".png") == "out/logo.png"
  {
    var s := "out" + [Sep] + ("logo" + ".png");
    assert |s| == 12;
    assert s[..4] == "out/" && s[4..8] == "logo" && s[8..] == ".png";
  }

  /** `basePath` with a separator appended unless it is empty or already ends
      in '/' or '\'. */
  function BaseDir(basePath: string): (r: string)
    ensures r == basePath || r == basePath + [Sep]
    ensures r == [] || r[|r| - 1] == '/' || r[|r| - 1] == '\\'
    ensures basePath == [] <==> r == []
  {
    if basePath != [] && basePath[|basePath| - 1] != '/' && basePath[|basePath| - 1] != '\\' then
      basePath + [Sep]
    else basePath
  }

  /** Appending the separator twice is appending it once. */
  lemma BaseDirIdempotent(basePath: string)
    ensures BaseDir(BaseDir(basePath)) == BaseDir(basePath)
  {
  }

  /** The glob pattern of an entry under an alias table: the base directory and
      the source pattern, rewritten by every alias in table order, with back
      slashes turned into forward slashes. */
  function SourcePattern(image: Image, basePath: string, table: seq<Alias>): string {
    ReplaceAll(ApplyAliases(BaseDir(basePath) + image.sourcePath, table), "\\", "/")
  }

  /** The target of an entry under an alias table, before star expansion. */
  function TargetPattern(image: Image, basePath: string, table: seq<Alias>): string {
    ApplyAliases(BaseDir(basePath) + image.targetPath, table)
  }

  /** The working directory handed to glob. */
  function GlobCwd(basePath: string): string {
    ReplaceAll(BaseDir(basePath), "\\", "/")
  }

  /** A pattern that mentions no alias and no back slash reaches glob as the
      base directory followed by the entry's source pattern. */
  lemma PatternWithoutAliases(image: Image, basePath: string, table: seq<Alias>)
    requires forall i :: 0 <= i < |table| ==> IndexOf(BaseDir(basePath) + image.sourcePath, table[i].name) == -1
    requires IndexOf(BaseDir(basePath) + image.sourcePath, "\\") == -1
    ensures SourcePattern(image, basePath, table) == BaseDir(basePath) + image.sourcePath
  {
    ApplyAliasesAbsent(BaseDir(basePath) + image.sourcePath, table);
  }

  /** `job` is a copy of `image` that differs at most in its two paths. */
  predicate CopyOf(job: Image, image: Image) {
    job.(sourcePath := image.sourcePath, targetPath := image.targetPath) == image
  }

  /** One job per glob match, in match order: a copy of the entry whose source
      is the match and whose target is the (possibly star-expanded) target. */
  function ExpandMatches(image: Image, target: string, files: seq<string>): (jobs: seq<Image>)
    ensures |jobs| == |files|
    ensures forall i :: 0 <= i < |files| ==> jobs[i].sourcePath == files[i] && CopyOf(jobs[i], image)
    ensures forall i :: 0 <= i < |files| ==> jobs[i].targetPath == WildcardTarget(target, files[i])
    decreases |files|
  {
    if files == [] then []
    else
      var job := image.(sourcePath := files[0], targetPath := WildcardTarget(target, files[0]));
      [job] + ExpandMatches(image, target, files[1..])
  }

  /** Every match gets the verbatim target when it has no star extension, and
      otherwise a target named after the match's stem with that extension. */
  lemma ExpandMatchesTargets(image: Image, target: string, files: seq<string>)
    ensures StarExtension(target).None? ==>
      forall i :: 0 <= i < |files| ==> ExpandMatches(image, target, files)[i].targetPath == target
    ensures StarExtension(target).Some? ==>
      forall i :: 0 <= i < |files| ==>
        Basename(ExpandMatches(image, target, files)[i].targetPath) == ParseName(files[i]) + StarExtension(target).value
  {
    if StarExtension(target).Some? {
      forall i | 0 <= i < |files|
        ensures Basename(ExpandMatches(image, target, files)[i].targetPath) == ParseName(files[i]) + StarExtension(target).value
      {
        WildcardTargetName(target, files[i]);
      }
    }
  }

  /** `resolveImagePath`: glob the rewritten source pattern; an error rejects
      (`None`), otherwise every match becomes a job. */
  function ResolveImagePath(image: Image, basePath: string, table: seq<Alias>, glob: Glob): (r: Option<seq<Image>>)
    ensures r.None? <==> glob(SourcePattern(image, basePath, table), GlobCwd(basePath)).None?
    ensures r.Some? ==> forall job :: job in r.value ==> CopyOf(job, image)
    ensures r.Some? ==>
      var files := glob(SourcePattern(image, basePath, table), GlobCwd(basePath)).value;
      |r.value| == |files| && forall i :: 0 <= i < |files| ==>
        r.value[i].sourcePath == files[i] && r.value[i].targetPath == WildcardTarget(TargetPattern(image, basePath, table), files[i])
  {
    match glob(SourcePattern(image, basePath, table), GlobCwd(basePath))
    case None => None
    case Some(files) => Some(ExpandMatches(image, TargetPattern(image, basePath, table), files))
  }

  /** Some alias name occurs in `src`. */
  predicate HasAlias(src: string, aliases: seq<Alias>) {
    exists i :: 0 <= i < |aliases| && IndexOf(src, aliases[i].name) != -1
  }

  /** The position of the earliest smallest non-negative entry of `ps`: the
      element a stable sort by value puts first, once negative entries (no
      occurrence) are set aside. */
  function FirstLeast(ps: seq<int>): (r: Option<nat>)
    ensures r.None? <==> forall i :: 0 <= i < |ps| ==> ps[i] < 0
    ensures r.Some? ==> r.value < |ps| && ps[r.value] >= 0
    ensures r.Some? ==> forall i :: 0 <= i < |ps| && ps[i] >= 0 ==> ps[r.value] <= ps[i]
    ensures r.Some? ==> forall i :: 0 <= i < r.value && ps[i] >= 0 ==> ps[r.value] < ps[i]
    decreases |ps|
  {
    if ps == [] then None
    else
      var rest := FirstLeast(ps[1..]);
      assert forall i :: 1 <= i < |ps| ==> ps[i] == ps[1..][i - 1];
      if ps[0] >= 0 && (rest.None? || ps[0] <= ps[1..][rest.value]) then Some(0)
      else if rest.None? then None
      else Some(rest.value + 1)
  }

  /** Where each alias name first occurs in `src`, or -1. */
  function Occurrences(src: string, aliases: seq<Alias>): (ps: seq<int>)
    ensures |ps| == |aliases|
    ensures forall i :: 0 <= i < |aliases| ==> ps[i] == IndexOf(src, aliases[i].name)
  {
    seq(|aliases|, i requires 0 <= i < |aliases| => IndexOf(src, aliases[i].name))
  }

  /** The alias a stable sort by first occurrence in `src` puts first: among
      the aliases whose name occurs, one with the smallest occurrence index and,
      among those, the earliest in the list. */
  function Leader(src: string, aliases: seq<Alias>): (r: Option<nat>)
    ensures r.None? <==> !HasAlias(src, aliases)
    ensures r.Some? ==> r.value < |aliases| && IndexOf(src, aliases[r.value].name) >= 0
    ensures r.Some? ==> forall i :: 0 <= i < |aliases| && IndexOf(src, aliases[i].name) >= 0 ==>
      IndexOf(src, aliases[r.value].name) <= IndexOf(src, aliases[i].name)
    ensures r.Some? ==> forall i :: 0 <= i < r.value && IndexOf(src, aliases[i].name) >= 0 ==>
      IndexOf(src, aliases[r.value].name) < IndexOf(src, aliases[i].name)
  {
    FirstLeast(Occurrences(src, aliases))
  }

  /** The aliases named `name`, in list order. */
  function Named(aliases: seq<Alias>, name: string): (r: seq<Alias>)
    ensures IsSubseq(r, aliases)
    ensures forall a :: a in r <==> a in aliases && a.name == name
    ensures forall a :: multiset(r)[a] == if a.name == name then multiset(aliases)[a] else 0
    decreases |aliases|
  {
    if aliases == [] then []
    else
      var rest := Named(aliases[1..], name);
      assert forall a :: a in aliases <==> a == aliases[0] || a in aliases[1..];
      if aliases[0].name == name then
        SubseqCons(aliases[0], rest, aliases[1..]);
        assert [aliases[0]] + aliases[1..] == aliases;
        [aliases[0]] + rest
      else
        SubseqSkip(aliases[0], rest, aliases[1..]);
        assert [aliases[0]] + aliases[1..] == aliases;
        rest
  }

  /** The first alias group: every alias named like the leader, each as often
      as it is listed, in list order. Empty exactly when no alias name occurs
      in `src`. */
  function Variants(src: string, aliases: seq<Alias>): (r: seq<Alias>)
    ensures r == [] <==> !HasAlias(src, aliases)
    ensures IsSubseq(r, aliases)
    ensures forall v :: v in r ==> IndexOf(src, v.name) >= 0
    ensures forall v, i :: v in r && 0 <= i < |aliases| && IndexOf(src, aliases[i].name) >= 0 ==>
      IndexOf(src, v.name) <= IndexOf(src, aliases[i].name)
    ensures Leader(src, aliases).Some? ==>
      var name := aliases[Leader(src, aliases).value].name;
      forall a :: multiset(r)[a] == if a.name == name then multiset(aliases)[a] else 0
  {
    match Leader(src, aliases)
    case None => []
    case Some(k) =>
      var r := Named(aliases, aliases[k].name);
      assert aliases[k] in r;
      r
  }

  /** Two names found at the same position: the stable sort keeps list order,
      so `@ab` leads and its group does not take in `@a`. */
  lemma VariantsTie(src: string, aliases: seq<Alias>)
    requires src == "@ab/x" && aliases == [Alias("@ab", "p"), Alias("@a", "q")]
    ensures Variants(src, aliases) == [aliases[0]]
  {
    TieAtStart(src, aliases[0].name, aliases[1].name);
    assert Leader(src, aliases) == Some(0);
    TieGroup(aliases);
  }

  lemma TieAtStart(src: string, a: string, b: string)
    requires src == "@ab/x" && a == "@ab" && b == "@a"
    ensures IndexOf(src, a) == 0 && IndexOf(src, b) == 0
  {
    assert src[..3] == a && src[..2] == b;
  }

  lemma TieGroup(aliases: seq<Alias>)
    requires aliases == [Alias("@ab", "p"), Alias("@a", "q")]
    ensures Named(aliases, "@ab") == [aliases[0]]
  {
    assert aliases[1].name != "@ab";
    assert aliases[1..][1..] == [];
  }

  /** The jobs of one variant `v`: it globs with the table `[v] + aliases`, so
      it is substituted before any alias of the list; a variant whose glob
      fails contributes nothing. */
  function VariantJob(image: Image, setup: Setup, glob: Glob, v: Alias): (jobs: seq<Image>)
    ensures forall job :: job in jobs ==> CopyOf(job, image)
    ensures var table := [v] + setup.aliases;
      var found := glob(SourcePattern(image, setup.basePath, table), GlobCwd(setup.basePath));
      && (found.None? ==> jobs == [])
      && (found.Some? ==> |jobs| == |found.value| && forall i :: 0 <= i < |jobs| ==>
            jobs[i].sourcePath == found.value[i]
            && jobs[i].targetPath == WildcardTarget(TargetPattern(image, setup.basePath, table), found.value[i]))
  {
    ResolveImagePath(image, setup.basePath, [v] + setup.aliases, glob).GetOr([])
  }

  function JobsOf(image: Image, setup: Setup, glob: Glob): Alias -> seq<Image> {
    v => VariantJob(image, setup, glob, v)
  }

  /** The jobs of every variant, in variant order. */
  function VariantJobs(image: Image, setup: Setup, variants: seq<Alias>, glob: Glob): (jobs: seq<Image>)
    ensures forall job :: job in jobs ==> CopyOf(job, image)
  {
    Flatten(variants, JobsOf(image, setup, glob))
  }

  /** Variant lists can be split anywhere: the jobs of a concatenation are the
      concatenated jobs. */
  lemma VariantJobsAppend(image: Image, setup: Setup, vs1: seq<Alias>, vs2: seq<Alias>, glob: Glob)
    ensures VariantJobs(image, setup, vs1 + vs2, glob) == VariantJobs(image, setup, vs1, glob) + VariantJobs(image, setup, vs2, glob)
  {
    FlattenAppend(vs1, vs2, JobsOf(image, setup, glob));
  }

  lemma FailedVariant(image: Image, setup: Setup, v: Alias, rest: seq<Alias>, glob: Glob)
    requires ResolveImagePath(image, setup.basePath, [v] + setup.aliases, glob).None?
    ensures VariantJobs(image, setup, [v] + rest, glob) == VariantJobs(image, setup, rest, glob)
  {
    assert ([v] + rest)[1..] == rest;
  }

  /** A variant whose glob fails drops out, and the others are kept. */
  lemma GlobFailureIsolated(image: Image, setup: Setup, variants: seq<Alias>, k: nat, glob: Glob)
    requires k < |variants|
    requires ResolveImagePath(image, setup.basePath, [variants[k]] + setup.aliases, glob).None?
    ensures VariantJobs(image, setup, variants, glob)
         == VariantJobs(image, setup, variants[..k], glob) + VariantJobs(image, setup, variants[k + 1..], glob)
  {
    var tail := [variants[k]] + variants[k + 1..];
    SplitAround(variants, k);
    VariantJobsAppend(image, setup, variants[..k], tail, glob);
    FailedVariant(image, setup, variants[k], variants[k + 1..], glob);
  }

  /** `resolveAliasedImagePaths`: `None` when no alias name occurs in the raw
      source pattern (the tool then never settles); otherwise the jobs of all
      variants with one job kept per source base name, the last one produced. */
  function ResolveAliased(image: Image, setup: Setup, glob: Glob): (r: Option<seq<Image>>)
    ensures r.None? <==> !HasAlias(image.sourcePath, setup.aliases)
    ensures r.Some? ==> r.value == KeepLast(VariantJobs(image, setup, Variants(image.sourcePath, setup.aliases), glob), Key)
    ensures r.Some? ==> forall job :: job in r.value ==> CopyOf(job, image)
  {
    var variants := Variants(image.sourcePath, setup.aliases);
    if variants == [] then None
    else
      var all := VariantJobs(image, setup, variants, glob);
      KeepLastSubseq(all, Key);
      SubseqMembers(KeepLast(all, Key), all);
      Some(DedupByBasename(all))
  }

  /** The jobs of an entry: one per source base name, drawn in order from the
      variants' jobs, every base name of which is represented. */
  lemma ResolveAliasedUnique(image: Image, setup: Setup, glob: Glob)
    requires HasAlias(image.sourcePath, setup.aliases)
    ensures var r := ResolveAliased(image, setup, glob).value;
      var all := VariantJobs(image, setup, Variants(image.sourcePath, setup.aliases), glob);
      UniqueKeys(r, Key) && IsSubseq(r, all) && Keys(r, Key) == Keys(all, Key)
  {
    var all := VariantJobs(image, setup, Variants(image.sourcePath, setup.aliases), glob);
    KeepLastUnique(all, Key);
    KeepLastSubseq(all, Key);
    KeepLastKeys(all, Key);
  }

  /** The jobs of the selected entries in declaration order, or `None` when
      some entry never settles. */
  function Gather(images: seq<Image>, setup: Setup, glob: Glob): (r: Option<seq<Image>>)
    ensures r.None? <==> exists x :: x in images && !HasAlias(x.sourcePath, setup.aliases)
  {
    FlattenOrFail(images, Resolver(setup, glob))
  }

  /** `resolveAliasedImagePaths` as a function of the entry. */
  function Resolver(setup: Setup, glob: Glob): Image -> Option<seq<Image>> {
    x => ResolveAliased(x, setup, glob)
  }

  /** The gathered jobs are exactly the jobs the entries resolve to. */
  lemma GatherMembers(images: seq<Image>, setup: Setup, glob: Glob)
    requires Gather(images, setup, glob).Some?
    ensures forall job :: job in Gather(images, setup, glob).value <==>
      exists x :: x in images && Produces(Resolver(setup, glob), x, job)
  {
    FlattenOrFailMembers(images, Resolver(setup, glob));
  }

  /** Gathering is concatenation: the jobs of two lists of entries are the
      two lists' jobs, once each and in order; either list failing fails the whole. */
  lemma GatherAppend(images1: seq<Image>, images2: seq<Image>, setup: Setup, glob: Glob)
    ensures Gather(images1 + images2, setup, glob) ==
      if Gather(images1, setup, glob).Some? && Gather(images2, setup, glob).Some?
      then Some(Gather(images1, setup, glob).value + Gather(images2, setup, glob).value)
      else None
  {
    FlattenOrFailAppend(images1, images2, Resolver(setup, glob));
  }

  /** One entry gathers exactly what it resolves to. */
  lemma GatherOne(x: Image, setup: Setup, glob: Glob)
    ensures Gather([x], setup, glob) == ResolveAliased(x, setup, glob)
  {
    FlattenOrFailOne(x, Resolver(setup, glob));
  }

  /** Every gathered job is a copy of one of the entries. */
  lemma GatherCopies(images: seq<Image>, setup: Setup, glob: Glob)
    requires Gather(images, setup, glob).Some?
    ensures forall job :: job in Gather(images, setup, glob).value ==> exists x :: x in images && CopyOf(job, x)
  {
    GatherMembers(images, setup, glob);
  }

  /** What `resolveImagePaths` leads to. */
  datatype Resolution =
    | Aborted              // a non-string `tags` made `split` throw
    | Stalled              // some selected entry never settles
    | Resolved(jobs: seq<Image>)

  /** `resolveImagePaths` over the prepared configuration. */
  function ResolveImagePaths(setup: Setup, tags: seq<string>, glob: Glob): (r: Resolution)
    ensures r.Aborted? <==> exists i :: 0 <= i < |setup.images| && !setup.images[i].tags.Str?
    ensures r.Stalled? <==> (!r.Aborted? &&
      exists x :: x in setup.images && Wanted(x, tags) && !HasAlias(x.sourcePath, setup.aliases))
    ensures r.Resolved? ==> forall job :: job in r.jobs ==>
      exists x :: x in setup.images && Wanted(x, tags) && CopyOf(job, x)
  {
    match SelectByTags(setup.images, tags)
    case None => Aborted
    case Some(selected) =>
      match Gather(selected, setup, glob)
      case None => Stalled
      case Some(jobs) =>
        GatherCopies(selected, setup, glob);
        Resolved(jobs)
  }

  /** A resolved run's jobs are the gathered jobs of the selected entries
      (so each entry's jobs once, in order, by `GatherAppend`), and they are
      exactly the jobs the selected entries resolve to. */
  lemma ResolvedJobs(setup: Setup, tags: seq<string>, glob: Glob)
    requires ResolveImagePaths(setup, tags, glob).Resolved?
    ensures SelectByTags(setup.images, tags).Some? &&
      Gather(SelectByTags(setup.images, tags).value, setup, glob) == Some(ResolveImagePaths(setup, tags, glob).jobs)
    ensures forall job :: job in ResolveImagePaths(setup, tags, glob).jobs <==>
      exists x :: x in setup.images && Wanted(x, tags) && Produces(Resolver(setup, glob), x, job)
  {
    var selected := SelectByTags(setup.images, tags).value;
    GatherMembers(selected, setup, glob);
  }
}

=== FILE: generate.dfy ===
/** Job planning: what `generateImages` does with the resolved jobs. Each job
    is turned into the decisions the tool takes (create the target directory,
    check the source, the resize command it builds for ImageMagick, the
    optimizer call), with the file system as an oracle; the jobs are chained
    one after the other. */
module Generate {
  import opened Common
  import opened Js
  import opened Paths
  import opened Config

  /** The file system and ImageMagick as the tool queries them. */
  datatype Fs = Fs(
    exists_: string -> bool,       // `fs.exists(path)`
    makeDir: string -> bool,       // `mkdirp(dir)` succeeds
    hasOperation: string -> bool)  // the gm image object has a method of this name

  // ---------------------------------------------------------------------------
  // Options: a JSON object as its list of bindings in key order.

  predicate HasName(m: OptionMap, key: string) {
    exists i :: 0 <= i < |m| && m[i].0 == key
  }

  predicate UniqueNames(m: OptionMap) {
    forall i, j :: 0 <= i < j < |m| ==> m[i].0 != m[j].0
  }

  /** The value bound to `key`, found by its first binding. */
  function Lookup(m: OptionMap, key: string): (r: Option<OptionArg>)
    ensures r.None? <==> !HasName(m, key)
    ensures r.Some? ==> exists i :: 0 <= i < |m| && m[i] == (key, r.value)
    decreases |m|
  {
    if m == [] then None
    else if m[0].0 == key then Some(m[0].1)
    else
      assert forall i :: 1 <= i < |m| ==> m[i] == m[1..][i - 1];
      Lookup(m[1..], key)
  }

  /** Property assignment `m[key] = arg`: an existing key keeps its place and
      takes the new value, a new key goes to the end. */
  function Put(m: OptionMap, key: string, arg: OptionArg): (r: OptionMap)
    ensures |r| == if HasName(m, key) then |m| else |m| + 1
    ensures forall i :: 0 <= i < |m| ==> r[i].0 == m[i].0
    decreases |m|
  {
    if m == [] then [(key, arg)]
    else if m[0].0 == key then [(key, arg)] + m[1..]
    else
      assert HasName(m, key) <==> HasName(m[1..], key) by {
        assert forall i :: 1 <= i < |m| ==> m[i] == m[1..][i - 1];
      }
      [m[0]] + Put(m[1..], key, arg)
  }

  /** After the assignment `key` reads as `arg` and every other key as before. */
  lemma {:induction false} PutLookup(m: OptionMap, key: string, arg: OptionArg, k: string)
    ensures Lookup(Put(m, key, arg), k) == if k == key then Some(arg) else Lookup(m, k)
    decreases |m|
  {
    if m != [] && m[0].0 != key {
      PutLookup(m[1..], key, arg, k);
      assert Put(m, key, arg)[1..] == Put(m[1..], key, arg);
    } else if m != [] {
      assert Put(m, key, arg)[1..] == m[1..];
    }
  }

  /** Assignment keeps keys unique. */
  lemma PutUnique(m: OptionMap, key: string, arg: OptionArg)
    requires UniqueNames(m)
    ensures UniqueNames(Put(m, key, arg))
  {
    var r := Put(m, key, arg);
    if HasName(m, key) {
      forall i, j | 0 <= i < j < |r| ensures r[i].0 != r[j].0 {
        assert r[i].0 == m[i].0 && r[j].0 == m[j].0;
      }
    } else {
      forall i, j | 0 <= i < j < |r| ensures r[i].0 != r[j].0 {
        assert r[i].0 == m[i].0;
        if j < |m| { assert r[j].0 == m[j].0; } else { PutLast(m, key, arg); }
      }
    }
  }

  lemma {:induction false} PutLast(m: OptionMap, key: string, arg: OptionArg)
    requires !HasName(m, key)
    ensures Put(m, key, arg)[|m|] == (key, arg)
    decreases |m|
  {
    if m != [] {
      assert !HasName(m[1..], key) by {
        forall i | 0 <= i < |m[1..]| ensures m[1..][i].0 != key {
          assert m[1..][i] == m[i + 1];
        }
      }
      PutLast(m[1..], key, arg);
    }
  }

  /** `_.extend(m, n)`: the bindings of `n` assigned onto `m` in order. */
  function Extend(m: OptionMap, n: OptionMap): OptionMap
    decreases |n|
  {
    if n == [] then m else Extend(Put(m, n[0].0, n[0].1), n[1..])
  }

  /** After `_.extend(m, n)` a key reads as in `n` when `n` has it and as in
      `m` otherwise; the keys of `m` keep their places in front. */
  lemma {:induction false} ExtendLookup(m: OptionMap, n: OptionMap, key: string)
    requires UniqueNames(n)
    ensures Lookup(Extend(m, n), key) == if HasName(n, key) then Lookup(n, key) else Lookup(m, key)
    ensures |Extend(m, n)| >= |m|
    ensures forall i :: 0 <= i < |m| ==> Extend(m, n)[i].0 == m[i].0
    decreases |n|
  {
    if n != [] {
      var t := n[1..];
      PutLookup(m, n[0].0, n[0].1, key);
      UniqueTail(n, key);
      ExtendLookup(Put(m, n[0].0, n[0].1), t, key);
    }
  }

  /** The tail of a map with unique keys has unique keys, lacks the head's
      key, and has every other key the map has. */
  lemma UniqueTail(n: OptionMap, key: string)
    requires UniqueNames(n) && n != []
    ensures UniqueNames(n[1..])
    ensures HasName(n, key) <==> n[0].0 == key || HasName(n[1..], key)
    ensures !HasName(n[1..], n[0].0)
  {
    var t := n[1..];
    assert forall i :: 1 <= i < |n| ==> n[i] == t[i - 1];
    forall i, j | 0 <= i < j < |t| ensures t[i].0 != t[j].0 {
      assert t[i] == n[i + 1] && t[j] == n[j + 1];
    }
    forall i | 0 <= i < |t| ensures t[i].0 != n[0].0 {
      assert t[i] == n[i + 1];
    }
  }

  /** The options a job's resize applies: the global options, then the job's
      own on top; `None` when neither is present. */
  function MergeOptions(global: Option<OptionMap>, own: Option<OptionMap>): (r: Option<OptionMap>)
    ensures r.None? <==> global.None? && own.None?
  {
    if global.None? && own.None? then None
    else Some(Extend(Extend([], global.GetOr([])), own.GetOr([])))
  }

  /** Each option reads as the job's own when the job has it and as the global
      one otherwise. */
  lemma MergeOptionsLookup(global: Option<OptionMap>, own: Option<OptionMap>, key: string)
    requires global.Some? ==> UniqueNames(global.value)
    requires own.Some? ==> UniqueNames(own.value)
    requires global.Some? || own.Some?
    ensures Lookup(MergeOptions(global, own).value, key) ==
      if own.Some? && HasName(own.value, key) then Lookup(own.value, key)
      else if global.Some? then Lookup(global.value, key)
      else None
  {
    var g := global.GetOr([]);
    ExtendLookup([], g, key);
    ExtendLookup(Extend([], g), own.GetOr([]), key);
  }

  /** What one option key leads to. */
  datatype OptionStep =
    | Invoke(name: string, args: seq<Value>)  // `newImage[name].apply(newImage, args)`
    | Unknown(name: string)                    // the image has no such operation: skipped
    | Warned(name: string)                     // a truthy non-list value: `join` throws, a warning

  /** One option: a list is passed as the arguments, a falsy value as no
      arguments, and any other value makes the logging `join` throw. */
  function StepOf(name: string, arg: OptionArg, hasOperation: string -> bool): (s: OptionStep)
    ensures s.name == name
    ensures s.Warned? <==> arg.Scalar? && Truthy(arg.v)
    ensures s.Unknown? <==> !s.Warned? && !hasOperation(name)
    ensures s.Invoke? ==> s.args == if arg.Args? then arg.items else []
  {
    match arg
    case Args(items) => if hasOperation(name) then Invoke(name, items) else Unknown(name)
    case Scalar(v) =>
      if Truthy(v) then Warned(name)
      else if hasOperation(name) then Invoke(name, []) else Unknown(name)
  }

  /** The options applied in key order. */
  function OptionSteps(m: OptionMap, hasOperation: string -> bool): (steps: seq<OptionStep>)
    ensures |steps| == |m|
    ensures forall i :: 0 <= i < |m| ==> steps[i] == StepOf(m[i].0, m[i].1, hasOperation)
  {
    seq(|m|, i requires 0 <= i < |m| => StepOf(m[i].0, m[i].1, hasOperation))
  }

  // ---------------------------------------------------------------------------
  // Resize.

  /** `resolution.split("x")`: the width is the first part, the height the
      second, absent when the resolution has no "x". */
  function Dimensions(resolution: string): (d: (string, Option<string>))
    ensures d.1.None? <==> IndexOf(resolution, "x") == -1
    ensures d.1.None? ==> d.0 == resolution
    ensures IndexOf(d.0, "x") == -1
    ensures d.1.Some? ==> IndexOf(d.1.value, "x") == -1
    ensures d.1.Some? ==>
      var k := IndexOf(resolution, "x");
      var rest := resolution[k + 1..];
      var m := IndexOf(rest, "x");
      d.0 == resolution[..k] && d.1.value == (if m == -1 then rest else rest[..m])
  {
    var parts := Split(resolution, "x");
    SplitPartsAvoidSeparator(resolution, "x");
    SplitHead(resolution, "x", IndexOf(resolution, "x"));
    if |parts| >= 2 then
      var rest := resolution[IndexOf(resolution, "x") + 1..];
      SplitHead(rest, "x", IndexOf(rest, "x"));
      (parts[0], Some(parts[1]))
    else (parts[0], None)
  }

  /** Writing a width and a height around an "x" and splitting again gives
      them back. */
  lemma DimensionsRoundTrip(width: string, height: string)
    requires 'x' !in width && 'x' !in height
    ensures Dimensions(width + "x" + height) == (width, Some(height))
  {
    var s := width + "x" + height;
    IndexOfChar(s, 'x', |width|);
    assert s[..|width|] == width;
    assert s[|width| + 1..] == height;
    IndexOfChar(height, 'x', -1);
    assert Split(s, "x") == SplitOn(s, "x") == [width] + SplitOn(height, "x") == [width, height];
  }

  datatype ResizeMode =
    | Fit    // `resize(width, height)`: keeps the aspect ratio
    | Exact  // `resizeExact(width, height)`

  /** The ImageMagick command `resizeImage` builds for a job. */
  datatype ResizeCommand = ResizeCommand(
    source: string,
    target: string,
    quality: Option<Value>,
    options: seq<OptionStep>,
    mode: ResizeMode,
    width: string,
    height: Option<string>)

  /** `proportional` is `true` or `"true"`. */
  predicate Proportional(v: Value) {
    v == Bool(true) || v == Str("true")
  }

  /** `resizeImage` for a job whose resolution is a string. */
  function ResizeImage(job: Image, setup: Setup, hasOperation: string -> bool): (c: ResizeCommand)
    requires job.resolution.Str?
    ensures c.source == job.sourcePath && c.target == job.targetPath
    ensures c.quality.None? <==> job.quality.Null?
    ensures c.quality.Some? ==> c.quality.value == job.quality
    ensures c.mode == Fit <==> Proportional(job.proportional)
    ensures (c.width, c.height) == Dimensions(job.resolution.s)
    ensures MergeOptions(setup.options, job.options).None? ==> c.options == []
    ensures MergeOptions(setup.options, job.options).Some? ==>
      c.options == OptionSteps(MergeOptions(setup.options, job.options).value, hasOperation)
  {
    var d := Dimensions(job.resolution.s);
    var options := MergeOptions(setup.options, job.options);
    ResizeCommand(
      job.sourcePath,
      job.targetPath,
      if job.quality.Null? then None else Some(job.quality),
      if options.None? then [] else OptionSteps(options.value, hasOperation),
      if Proportional(job.proportional) then Fit else Exact,
      d.0,
      d.1)
  }

  // ---------------------------------------------------------------------------
  // Optimization.

  /** The per-job gate: `optimize == null || (optimize != "false" && optimize != false)`. */
  predicate OptimizeWanted(v: Value) {
    IsNullish(v) || (v != Str("false") && !LooselyFalse(v))
  }

  /** The gate skips the optimizer exactly for `"false"` and the values loosely
      equal to `false` (`false`, 0, and strings such as "", "0" or "0.0"). */
  lemma OptimizeWantedExactly(v: Value)
    ensures !OptimizeWanted(v) <==> v == Str("false") || LooselyFalse(v)
  {
  }

  /** Absent, null, `true`, "true" and 1 let the optimizer run. */
  lemma OptimizeWantedExamples()
    ensures OptimizeWanted(Undefined) && OptimizeWanted(Null) && OptimizeWanted(Bool(true))
    ensures OptimizeWanted(Str("true")) && OptimizeWanted(Num(1))
  {
    TrueWord("true");
  }

  /** `false`, "false", 0, "" and "0" switch it off. */
  lemma OptimizeUnwantedExamples()
    ensures !OptimizeWanted(Bool(false)) && !OptimizeWanted(Str("false")) && !OptimizeWanted(Num(0))
    ensures !OptimizeWanted(Str("")) && !OptimizeWanted(Str("0"))
  {
    ZeroString("0");
  }

  datatype Optimizer = Optipng | Jpegtran

  /** What `optimizeImage` does with a target file. */
  datatype OptimizeDecision =
    | NoTool                                    // resolves without running anything
    | Run(tool: Optimizer, args: seq<string>)  // runs the tool, then resolves
    | Hangs                                     // never resolves

  /** The setting switches its optimizer on: `setting != null && setting !== false`. */
  predicate Enabled(setting: Value) {
    !IsNullish(setting) && setting != Bool(false)
  }

  /** The leading arguments: the space-free words of a non-empty string setting; any
      other setting gives none (`setting.length > 0` fails). */
  function SettingArgs(setting: Value): (args: seq<string>)
    ensures setting.Str? && setting.s != [] ==> Join(args, " ") == setting.s
    ensures forall i, j :: 0 <= i < |args| && 0 <= j < |args[i]| ==> args[i][j] != ' '
    ensures !(setting.Str? && setting.s != []) ==> args == []
  {
    if setting.Str? && setting.s != [] then
      var words := Split(setting.s, " ");
      SplitJoin(setting.s, " ");
      SplitPartsAvoidSeparator(setting.s, " ");
      forall i | 0 <= i < |words|
        ensures forall j :: 0 <= j < |words[i]| ==> words[i][j] != ' '
      {
        CharAbsent(words[i], ' ');
      }
      words
    else []
  }

  /** The optimizer step for one tool: run it on the file in place when its
      setting enables it; otherwise the switch falls through without resolving. */
  function ToolStep(tool: Optimizer, setting: Value, outFlag: string, filePath: string): (d: OptimizeDecision)
    ensures d.Hangs? <==> !Enabled(setting)
    ensures d.Run? ==> d.tool == tool && d.args == SettingArgs(setting) + [outFlag, filePath, filePath]
    ensures !d.NoTool?
  {
    if Enabled(setting) then Run(tool, SettingArgs(setting) + [outFlag, filePath, filePath]) else Hangs
  }

  /** `optimizeImage(filePath, config)`: chosen by the lower-cased extension. */
  function OptimizeImage(filePath: string, optimize: Option<OptimizeSettings>): (d: OptimizeDecision)
    ensures Lower(Extname(filePath)) == ".png" ==>
      d == ToolStep(Optipng, if optimize.Some? then optimize.value.optipng else Undefined, "-out", filePath)
    ensures Lower(Extname(filePath)) in {".jpg", ".jpeg"} ==>
      d == ToolStep(Jpegtran, if optimize.Some? then optimize.value.jpgtran else Undefined, "-outfile", filePath)
    ensures d.NoTool? <==> Lower(Extname(filePath)) !in {".png", ".jpg", ".jpeg"}
  {
    var ext := Lower(Extname(filePath));
    if ext == ".png" then
      ToolStep(Optipng, if optimize.Some? then optimize.value.optipng else Undefined, "-out", filePath)
    else if ext == ".jpg" || ext == ".jpeg" then
      ToolStep(Jpegtran, if optimize.Some? then optimize.value.jpgtran else Undefined, "-outfile", filePath)
    else NoTool
  }

  /** Whatever the setting, the file path is the last two arguments, after the
      output flag, and the setting's words come first. */
  lemma OptimizerArguments(filePath: string, optimize: Option<OptimizeSettings>)
    requires OptimizeImage(filePath, optimize).Run?
    ensures var args := OptimizeImage(filePath, optimize).args;
      |args| >= 3 && args[|args| - 2..] == [filePath, filePath]
      && args[|args| - 3] == (if OptimizeImage(filePath, optimize).tool == Optipng then "-out" else "-outfile")
  {
    var png := Lower(Extname(filePath)) == ".png";
    var setting := if optimize.None? then Undefined
      else if png then optimize.value.optipng else optimize.value.jpgtran;
    LastThree(SettingArgs(setting), if png then "-out" else "-outfile", filePath);
  }

  lemma LastThree(lead: seq<string>, flag: string, filePath: string)
    ensures var args := lead + [flag, filePath, filePath];
      |args| >= 3 && args[|args| - 2..] == [filePath, filePath] && args[|args| - 3] == flag
  {
  }

  // ---------------------------------------------------------------------------
  // One job, and the chain of jobs.

  /** The optimization step of a job. */
  datatype OptimizeStep =
    | NotWanted                         // the job's `optimize` switches it off
    | Decided(decision: OptimizeDecision)

  /** How one job ends. */
  datatype JobOutcome =
    | BadResolution          // `resolution` is not a string: `split` throws
    | DirFailed(dir: string)   // the target directory could not be created
    | SourceMissing          // the source file does not exist
    | Resized(resize: ResizeCommand, optimize: OptimizeStep)

  /** The job's promise settles. */
  predicate Settles(o: JobOutcome) {
    !(o.Resized? && o.optimize.Decided? && o.optimize.decision.Hangs?)
  }

  /** The next job is started after this one. A throw before the job's own
      promise exists rejects the chain, and every later job is skipped. */
  predicate Continues(o: JobOutcome) {
    !o.BadResolution? && Settles(o)
  }

  /** `generateImage(job, config)`. */
  function GenerateImage(job: Image, setup: Setup, fs: Fs): (o: JobOutcome)
    ensures o.BadResolution? <==> !job.resolution.Str?
    ensures o.DirFailed? <==> job.resolution.Str? && !fs.makeDir(Dirname(job.targetPath))
    ensures o.SourceMissing? <==>
      job.resolution.Str? && fs.makeDir(Dirname(job.targetPath)) && !fs.exists_(job.sourcePath)
    ensures o.Resized? ==> o.resize.source == job.sourcePath && o.resize.target == job.targetPath
    ensures o.Resized? ==> o.resize == ResizeImage(job, setup, fs.hasOperation)
    ensures o.Resized? ==> (o.optimize.NotWanted? <==> !OptimizeWanted(job.optimize))
    ensures o.Resized? && o.optimize.Decided? ==> o.optimize.decision == OptimizeImage(job.targetPath, setup.optimize)
  {
    if !job.resolution.Str? then BadResolution
    else if !fs.makeDir(Dirname(job.targetPath)) then DirFailed(Dirname(job.targetPath))
    else if !fs.exists_(job.sourcePath) then SourceMissing
    else
      var resize := ResizeImage(job, setup, fs.hasOperation);
      if OptimizeWanted(job.optimize) then Resized(resize, Decided(OptimizeImage(job.targetPath, setup.optimize)))
      else Resized(resize, NotWanted)
  }

  /** The optimizer never resolves exactly for a png target whose optipng
      setting is off and a jpeg target whose jpegtran setting is off. */
  lemma HangsExactly(filePath: string, optimize: Option<OptimizeSettings>)
    ensures OptimizeImage(filePath, optimize).Hangs? <==>
      (Lower(Extname(filePath)) == ".png"
        && !Enabled(if optimize.Some? then optimize.value.optipng else Undefined))
      || (Lower(Extname(filePath)) in {".jpg", ".jpeg"}
        && !Enabled(if optimize.Some? then optimize.value.jpgtran else Undefined))
  {
  }

  /** A job stalls the chain exactly when it gets through directory creation,
      the source check and the resize, wants optimization, and its optimizer
      never resolves. */
  lemma StallsExactly(job: Image, setup: Setup, fs: Fs)
    ensures !Settles(GenerateImage(job, setup, fs)) <==>
      job.resolution.Str? && fs.makeDir(Dirname(job.targetPath)) && fs.exists_(job.sourcePath)
      && OptimizeWanted(job.optimize) && OptimizeImage(job.targetPath, setup.optimize).Hangs?
  {
  }

  /** The jobs attempted, in order, and whether the last one settled. */
  datatype Generation = Generation(outcomes: seq<JobOutcome>, settles: bool)

  /** How many elements of `s` are reached when each one is passed only if
      `go` holds of it: up to and including the first that fails `go`. */
  function Reached<T>(s: seq<T>, go: T -> bool): (n: nat)
    ensures n <= |s|
    ensures forall i :: 0 <= i < n - 1 ==> go(s[i])
    ensures n < |s| ==> n > 0 && !go(s[n - 1])
    ensures n == |s| <==> forall i :: 0 <= i < |s| - 1 ==> go(s[i])
    decreases |s|
  {
    if s == [] then 0
    else if !go(s[0]) then 1
    else
      assert forall i :: 1 <= i < |s| ==> s[i] == s[1..][i - 1];
      1 + Reached(s[1..], go)
  }

  /** The chain over the outcomes the jobs would have: each job starts once the
      previous one has settled. A failed directory or a missing source only
      ends that job; a bad resolution rejects the chain, so no later job starts
      (the run still completes); a job that never settles holds up every later
      job. */
  function Chain(planned: seq<JobOutcome>): (g: Generation)
    ensures |g.outcomes| <= |planned| && g.outcomes == planned[..|g.outcomes|]
    ensures forall i :: 0 <= i < |g.outcomes| - 1 ==> Continues(g.outcomes[i])
    ensures |g.outcomes| < |planned| ==> |g.outcomes| > 0 && !Continues(g.outcomes[|g.outcomes| - 1])
    ensures |g.outcomes| == |planned| <==> forall i :: 0 <= i < |planned| - 1 ==> Continues(planned[i])
    ensures g.settles <==> forall i :: 0 <= i < |g.outcomes| ==> Settles(g.outcomes[i])
  {
    var n := Reached(planned, Continues);
    Generation(planned[..n], forall i :: 0 <= i < n ==> Settles(planned[i]))
  }

  /** What each job would come to if it were started. */
  function Plan(jobs: seq<Image>, setup: Setup, fs: Fs): (p: seq<JobOutcome>)
    ensures |p| == |jobs|
    ensures forall i :: 0 <= i < |jobs| ==> p[i] == GenerateImage(jobs[i], setup, fs)
  {
    seq(|jobs|, i requires 0 <= i < |jobs| => GenerateImage(jobs[i], setup, fs))
  }

  /** `generateImages`: the jobs chained in list order. */
  function GenerateImages(jobs: seq<Image>, setup: Setup, fs: Fs): (g: Generation)
    ensures |g.outcomes| <= |jobs| && g.outcomes == Plan(jobs, setup, fs)[..|g.outcomes|]
    ensures forall i :: 0 <= i < |g.outcomes| - 1 ==> Continues(g.outcomes[i])
    ensures |g.outcomes| < |jobs| ==> |g.outcomes| > 0 && !Continues(g.outcomes[|g.outcomes| - 1])
    ensures |g.outcomes| == |jobs| <==> forall i :: 0 <= i < |jobs| - 1 ==> Continues(Plan(jobs, setup, fs)[i])
    ensures g.settles <==> forall i :: 0 <= i < |g.outcomes| ==> Settles(g.outcomes[i])
  {
    Chain(Plan(jobs, setup, fs))
  }
}

=== FILE: js.dfy ===
/** The JavaScript primitives the build pipeline is made of: loosely typed
    configuration values, `String.prototype.indexOf`, `split`, `Array.prototype.join`
    and the `text.split(name).join(path)` replacement idiom. */
module Js {

  /** A primitive configuration value as `JSON.parse` delivers it, where the
      tool does not insist on a type. Numbers are integers in this model; arrays
      and objects in these fields are not modelled. */
  datatype Value = Undefined | Null | Bool(b: bool) | Num(n: int) | Str(s: string)

  /** `v == null`: loose equality holds for both `null` and `undefined`. */
  predicate IsNullish(v: Value) {
    v.Undefined? || v.Null?
  }

  /** JavaScript truthiness. */
  predicate Truthy(v: Value) {
    match v
    case Undefined => false
    case Null => false
    case Bool(b) => b
    case Num(n) => n != 0
    case Str(s) => s != ""
  }

  /** The characters `String.prototype.trim` and `Number(...)` treat as white space. */
  predicate IsJsSpace(c: char) {
    c in {'\U{0020}', '\U{0009}', '\U{000A}', '\U{000D}', '\U{000B}', '\U{000C}', '\U{00A0}', '\U{1680}',
          '\U{2000}', '\U{2001}', '\U{2002}', '\U{2003}', '\U{2004}', '\U{2005}', '\U{2006}', '\U{2007}',
          '\U{2008}', '\U{2009}', '\U{200A}', '\U{2028}', '\U{2029}', '\U{202F}', '\U{205F}', '\U{3000}',
          '\U{FEFF}'}
  }

  function TrimSpace(s: string): (t: string)
    ensures |t| <= |s|
    decreases |s|
  {
    if s != [] && IsJsSpace(s[0]) then TrimSpace(s[1..])
    else if s != [] && IsJsSpace(s[|s| - 1]) then TrimSpace(s[..|s| - 1])
    else s
  }

  predicate AllZeroDigits(s: string) {
    |s| >= 1 && forall i :: 0 <= i < |s| ==> s[i] == '0'
  }

  predicate IsDigit(c: char) {
    '0' <= c <= '9'
  }

  /** Position of the first exponent marker 'e' or 'E', or `|s|`. */
  function ExponentAt(s: string): (k: nat)
    ensures k <= |s|
    ensures forall i :: 0 <= i < k ==> s[i] != 'e' && s[i] != 'E'
    ensures k < |s| ==> s[k] == 'e' || s[k] == 'E'
    decreases |s|
  {
    if s == [] || s[0] == 'e' || s[0] == 'E' then 0 else 1 + ExponentAt(s[1..])
  }

  /** A decimal mantissa whose value is zero: zeros and at most one point,
      with at least one zero ("0", "00.0", ".0", "0."). */
  predicate ZeroMantissa(m: string) {
    '0' in m && multiset(m)['.'] <= 1 && forall i :: 0 <= i < |m| ==> m[i] == '0' || m[i] == '.'
  }

  /** An exponent after the 'e': an optional sign and at least one digit. */
  predicate ExponentDigits(x: string) {
    var y := if x != [] && (x[0] == '+' || x[0] == '-') then x[1..] else x;
    |y| >= 1 && forall i :: 0 <= i < |y| ==> IsDigit(y[i])
  }

  /** A string `Number(...)` converts to zero: blank, a signed decimal literal
      of value zero with an optional exponent, or an unsigned hexadecimal,
      octal or binary literal made of zeros. */
  predicate ZeroNumeral(s: string) {
    var t := TrimSpace(s);
    var u := if t != [] && (t[0] == '+' || t[0] == '-') then t[1..] else t;
    var k := ExponentAt(u);
    t == []
    || (ZeroMantissa(u[..k]) && (k == |u| || ExponentDigits(u[k + 1..])))
    || (|t| >= 3 && t[0] == '0' && t[1] in "xXoObB" && AllZeroDigits(t[2..]))
  }

  /** `v == false` with loose equality: `false` itself, the number 0 and strings
      that convert to 0. `null` and `undefined` are not loosely equal to `false`. */
  predicate LooselyFalse(v: Value) {
    match v
    case Bool(b) => !b
    case Num(n) => n == 0
    case Str(s) => ZeroNumeral(s)
    case _ => false
  }

  lemma NoSpace(s: string)
    requires forall i :: 0 <= i < |s| ==> 'a' <= s[i] <= 'z' || '0' <= s[i] <= '9' || s[i] == '.'
    ensures TrimSpace(s) == s
  {
    if s != [] {
      assert !IsJsSpace(s[0]) && !IsJsSpace(s[|s| - 1]);
    }
  }

  /** `ExponentAt` is the first 'e' or 'E'. */
  lemma ExponentAtIs(s: string, k: nat)
    requires k <= |s|
    requires forall i :: 0 <= i < k ==> s[i] != 'e' && s[i] != 'E'
    requires k < |s| ==> s[k] == 'e' || s[k] == 'E'
    ensures ExponentAt(s) == k
  {
  }

  lemma ZeroString(s: string)
    requires s == "0"
    ensures LooselyFalse(Str(s))
  {
    NoSpace(s);
    assert ExponentAt(s) == 1;
  }

  lemma ZeroWithExponent(s: string)
    requires |s| == 5 && s[0] == '0' && s[1] == '.' && s[2] == '0' && s[3] == 'e' && s[4] == '5'
    ensures LooselyFalse(Str(s))
  {
    NoSpace(s);
    ExponentAtIs(s, 3);
    ZeroWithExponentParts(s[..3], s[4..]);
    UnsignedZeroDecimal(s, 3);
  }

  lemma ZeroWithExponentParts(m: string, x: string)
    requires m == "0.0" && x == "5"
    ensures ZeroMantissa(m) && ExponentDigits(x)
  {
    PointZero(m);
    assert IsDigit(x[0]);
  }

  /** An unsigned, unpadded decimal literal of value zero converts to zero. */
  lemma UnsignedZeroDecimal(s: string, k: nat)
    requires TrimSpace(s) == s && s != [] && s[0] != '+' && s[0] != '-'
    requires ExponentAt(s) == k && ZeroMantissa(s[..k])
    requires k == |s| || ExponentDigits(s[k + 1..])
    ensures ZeroNumeral(s)
  {
    var t := TrimSpace(s);
    assert t == s && t != [] && !(t[0] == '+' || t[0] == '-');
  }

  lemma PointZero(m: string)
    requires m == "0.0"
    ensures ZeroMantissa(m)
  {
    assert m == ['0', '.'] + ['0'];
    assert multiset(m)['.'] == 1;
  }

  lemma ZeroHex(s: string)
    requires s == "0x00"
    ensures LooselyFalse(Str(s))
  {
    NoSpace(s);
  }

  lemma FalseWord(s: string)
    requires s == "false"
    ensures !LooselyFalse(Str(s))
  {
    NoSpace(s);
    assert ExponentAt(s) == 4;
    assert s[..4][0] == 'f';
  }

  lemma TrueWord(s: string)
    requires s == "true"
    ensures !LooselyFalse(Str(s))
  {
    NoSpace(s);
    assert ExponentAt(s) == 3;
    assert s[..3][0] == 't';
  }

  lemma OneString(s: string)
    requires s == "1"
    ensures !LooselyFalse(Str(s))
  {
    NoSpace(s);
    assert ExponentAt(s) == 1;
    assert '0' !in s;
  }

  /** Strings loosely equal to `false` are those that convert to the number 0:
      the empty string, "0", "0.0e5", "0x00"; the words "false" and "true" and
      the string "1" are not. */
  lemma LooselyFalseExamples()
    ensures LooselyFalse(Str("")) && LooselyFalse(Str("0")) && LooselyFalse(Str("0.0e5")) && LooselyFalse(Str("0x00"))
    ensures !LooselyFalse(Str("false")) && !LooselyFalse(Str("true")) && !LooselyFalse(Str("1"))
  {
    ZeroString("0");
    ZeroWithExponent("0.0e5");
    ZeroHex("0x00");
    FalseWord("false");
    TrueWord("true");
    OneString("1");
  }

  /** ASCII `toLowerCase`. */
  function LowerChar(c: char): char {
    if 'A' <= c <= 'Z' then (c as int + 32) as char else c
  }

  function Lower(s: string): string {
    seq(|s|, i requires 0 <= i < |s| => LowerChar(s[i]))
  }

  /** `t` occurs in `s` starting at position `i`. */
  predicate OccursAt(s: string, t: string, i: int) {
    0 <= i && i + |t| <= |s| && s[i..i + |t|] == t
  }

  lemma OccursAtTail(s: string, t: string)
    requires |s| > 0
    ensures forall j :: 1 <= j ==> (OccursAt(s, t, j) <==> OccursAt(s[1..], t, j - 1))
  {
    forall j | 1 <= j
      ensures OccursAt(s, t, j) <==> OccursAt(s[1..], t, j - 1)
    {
      if j + |t| <= |s| {
        assert s[1..][j - 1..j - 1 + |t|] == s[j..j + |t|];
      }
    }
  }

  /** `s.indexOf(t)`: the first position at which `t` occurs in `s`, or -1.
      The empty string occurs at position 0 of every string. */
  function IndexOf(s: string, t: string): (r: int)
    ensures -1 <= r <= |s|
    ensures r >= 0 ==> OccursAt(s, t, r)
    ensures forall j :: 0 <= j && (r < 0 || j < r) ==> !OccursAt(s, t, j)
    decreases |s|
  {
    if |t| > |s| then -1
    else if s[..|t|] == t then 0
    else
      OccursAtTail(s, t);
      var k := IndexOf(s[1..], t);
      assert !OccursAt(s, t, 0);
      if k < 0 then -1 else k + 1
  }

  /** Locating a single character: `k` is its first position, or -1 when absent. */
  lemma IndexOfChar(s: string, c: char, k: int)
    requires -1 <= k < |s|
    requires k >= 0 ==> s[k] == c
    requires forall j :: 0 <= j < |s| && (k < 0 || j < k) ==> s[j] != c
    ensures IndexOf(s, [c]) == k
  {
    var r := IndexOf(s, [c]);
    OccursChar(s, c, r);
    OccursChar(s, c, k);
  }

  /** A one-character string occurs exactly where that character is. */
  lemma OccursChar(s: string, c: char, i: int)
    ensures OccursAt(s, [c], i) <==> 0 <= i < |s| && s[i] == c
  {
    if 0 <= i < |s| {
      assert s[i..i + 1] == [s[i]];
    }
  }

  /** `s.split(sep)`. A non-empty separator cuts `s` at each occurrence found
      scanning left to right, so there is always at least one part; the empty
      separator splits `s` into its characters (and "" into no parts). */
  function Split(s: string, sep: string): (parts: seq<string>)
    ensures sep != [] ==> |parts| >= 1
    ensures sep != [] ==> (|parts| == 1 <==> IndexOf(s, sep) == -1)
    ensures sep != [] && IndexOf(s, sep) == -1 ==> parts == [s]
  {
    if sep == [] then Characters(s) else SplitOn(s, sep)
  }

  function Characters(s: string): (parts: seq<string>)
    ensures |parts| == |s|
    ensures forall i :: 0 <= i < |s| ==> parts[i] == [s[i]]
  {
    seq(|s|, i requires 0 <= i < |s| => [s[i]])
  }

  function SplitOn(s: string, sep: string): (parts: seq<string>)
    requires sep != []
    ensures |parts| >= 1
    ensures |parts| == 1 <==> IndexOf(s, sep) == -1
    ensures IndexOf(s, sep) == -1 ==> parts == [s]
    decreases |s|, 1
  {
    SplitAt(s, sep, IndexOf(s, sep))
  }

  /** The split of `s` once the first separator has been found at `k` (-1: none). */
  function SplitAt(s: string, sep: string, k: int): (parts: seq<string>)
    requires sep != [] && (k < 0 || k + |sep| <= |s|)
    ensures |parts| >= 1
    ensures |parts| == 1 <==> k < 0
    ensures k < 0 ==> parts == [s]
    decreases |s|, 0
  {
    if k < 0 then [s]
    else [s[..k]] + SplitOn(s[k + |sep|..], sep)
  }

  /** The first part of a split is the text before the first separator (all of
      `s` when there is none); the other parts are the split of what follows it. */
  lemma SplitHead(s: string, sep: string, k: int)
    requires sep != [] && k == IndexOf(s, sep)
    ensures Split(s, sep)[0] == if k == -1 then s else s[..k]
    ensures k >= 0 ==> k + |sep| <= |s| && Split(s, sep)[1..] == Split(s[k + |sep|..], sep)
  {
    if k >= 0 {
      var tail := Split(s[k + |sep|..], sep);
      SplitStep(s, sep, k);
      assert ([s[..k]] + tail)[1..] == tail;
    }
  }

  /** The recursion step of `split` at the first separator. */
  lemma SplitStep(s: string, sep: string, k: int)
    requires sep != [] && k == IndexOf(s, sep) && k >= 0
    ensures k + |sep| <= |s| && Split(s, sep) == [s[..k]] + Split(s[k + |sep|..], sep)
  {
    var rest := s[k + |sep|..];
    assert Split(s, sep) == SplitOn(s, sep) == SplitAt(s, sep, k);
    SplitAtCons(s, sep, k);
    assert Split(rest, sep) == SplitOn(rest, sep);
  }

  /** One step of the scan that `split` performs, separated from the search for the separator. */
  lemma SplitAtCons(s: string, sep: string, k: int)
    requires sep != [] && 0 <= k && k + |sep| <= |s|
    ensures SplitAt(s, sep, k) == [s[..k]] + SplitOn(s[k + |sep|..], sep)
  {
  }

  /** `parts.join(sep)`. */
  function Join(parts: seq<string>, sep: string): string
    decreases |parts|
  {
    if |parts| == 0 then []
    else if |parts| == 1 then parts[0]
    else parts[0] + sep + Join(parts[1..], sep)
  }

  lemma {:induction false} JoinCharacters(s: string)
    ensures Join(Split(s, []), []) == s
    decreases |s|
  {
    var cs := Split(s, []);
    if |s| > 1 {
      var rest := Split(s[1..], []);
      assert cs[1..] == rest;
      JoinCharacters(s[1..]);
      assert s == [s[0]] + s[1..];
    } else if |s| == 1 {
      assert cs[0] == s;
    }
  }

  /** Splitting and joining again with the same separator gives back the string. */
  lemma {:induction false} SplitJoin(s: string, sep: string)
    ensures Join(Split(s, sep), sep) == s
    decreases |s|
  {
    if sep == [] {
      JoinCharacters(s);
    } else {
      var k := IndexOf(s, sep);
      if k >= 0 {
        var rest := s[k + |sep|..];
        SplitJoin(rest, sep);
        SplitJoinStep(s, sep, k);
      }
    }
  }

  lemma SplitJoinStep(s: string, sep: string, k: int)
    requires sep != [] && k == IndexOf(s, sep) && k >= 0
    requires Join(Split(s[k + |sep|..], sep), sep) == s[k + |sep|..]
    ensures Join(Split(s, sep), sep) == s
  {
    SplitStep(s, sep, k);
    JoinCons(s[..k], Split(s[k + |sep|..], sep), sep);
    CutAt(s, sep, k);
  }

  lemma CutAt(s: string, t: string, k: int)
    requires OccursAt(s, t, k)
    ensures s == s[..k] + t + s[k + |t|..]
  {
    assert s == s[..k] + s[k..k + |t|] + s[k + |t|..];
  }

  lemma JoinCons(head: string, tail: seq<string>, sep: string)
    requires |tail| >= 1
    ensures Join([head] + tail, sep) == head + sep + Join(tail, sep)
  {
    assert ([head] + tail)[1..] == tail;
  }

  /** A string in which a one-character string does not occur holds no copy of that character. */
  lemma CharAbsent(s: string, c: char)
    requires IndexOf(s, [c]) == -1
    ensures forall j :: 0 <= j < |s| ==> s[j] != c
  {
    forall j | 0 <= j < |s|
      ensures s[j] != c
    {
      assert !OccursAt(s, [c], j);
      assert s[j..j + 1] == [s[j]];
    }
  }

  /** No part produced by a non-empty separator contains that separator. */
  lemma {:induction false} SplitPartsAvoidSeparator(s: string, sep: string)
    requires sep != []
    ensures forall i :: 0 <= i < |Split(s, sep)| ==> IndexOf(Split(s, sep)[i], sep) == -1
    decreases |s|
  {
    var k := IndexOf(s, sep);
    if k >= 0 {
      var rest := s[k + |sep|..];
      SplitPartsAvoidSeparator(rest, sep);
      var head := s[..k];
      forall j | 0 <= j
        ensures !OccursAt(head, sep, j)
      {
        if OccursAt(head, sep, j) {
          assert head[j..j + |sep|] == s[j..j + |sep|];
          assert OccursAt(s, sep, j);
        }
      }
      var parts := Split(s, sep);
      SplitStep(s, sep, k);
      forall i | 0 <= i < |parts|
        ensures IndexOf(parts[i], sep) == -1
      {
        if i > 0 {
          assert parts[i] == Split(rest, sep)[i - 1];
        } else {
          assert parts[0] == head;
        }
      }
    }
  }

  /** `s.split(name).join(path)`: every occurrence of `name` found scanning left
      to right, without overlap, becomes `path`. */
  function ReplaceAll(s: string, name: string, path: string): (r: string)
    ensures IndexOf(s, name) == -1 ==> r == s
    ensures path == name ==> r == s
  {
    SplitJoin(s, name);
    Join(Split(s, name), path)
  }
}

=== FILE: params.dfy ===
/** `readParameters`: the command line read as flag/value pairs. */
module Params {
  import opened Common
  import opened Js

  /** The settings the command line can change. */
  datatype Settings = Settings(configFile: string, configLocalFile: string, tags: seq<string>)

  /** The settings used when no flag is given. */
  const Defaults := Settings("config.json", "config-local.json", ["all"])

  const ConfigFlags: set<string> := {"--config", "-config", "config"}
  const ConfigLocalFlags: set<string> := {"--config-local", "-config-local", "config-local"}
  const TagsFlags: set<string> := {"--tags", "-tags", "tags"}

  /** Position `p` holds a value the scan reads: an odd position after the
      first two (3, 5, 7, ...), whose flag stands just before it. */
  predicate ValueAt(argv: seq<string>, p: int) {
    1 < p < |argv| && p % 2 == 1
  }

  /** The last value position before `n` whose flag is one of `flags`. */
  function LastFlagged(argv: seq<string>, flags: set<string>, n: nat): (r: Option<nat>)
    requires n <= |argv|
    ensures r.Some? ==> r.value < n && ValueAt(argv, r.value) && argv[r.value - 1] in flags
    ensures r.None? ==> forall q :: 0 <= q < n ==> !(ValueAt(argv, q) && argv[q - 1] in flags)
    ensures r.Some? ==> forall q :: r.value < q < n ==> !(ValueAt(argv, q) && argv[q - 1] in flags)
    decreases n
  {
    if n == 0 then None
    else if ValueAt(argv, n - 1) && argv[n - 2] in flags then Some(n - 1)
    else LastFlagged(argv, flags, n - 1)
  }

  lemma Advance(argv: seq<string>, flags: set<string>, i: nat)
    requires i < |argv|
    ensures LastFlagged(argv, flags, i + 1) ==
      if ValueAt(argv, i) && argv[i - 1] in flags then Some(i) else LastFlagged(argv, flags, i)
  {
  }

  /** What one flag sets: the value of its last occurrence, or `fallback`. */
  function LastValue(argv: seq<string>, flags: set<string>, n: nat, fallback: string): string
    requires n <= |argv|
  {
    match LastFlagged(argv, flags, n)
    case None => fallback
    case Some(p) => argv[p]
  }

  /** The reference reading of the first `n` positions of a command line:
      for each setting, the value after the last of its flags, if any. */
  function PartialParameters(argv: seq<string>, settings: Settings, n: nat): Settings
    requires n <= |argv|
  {
    Settings(
      LastValue(argv, ConfigFlags, n, settings.configFile),
      LastValue(argv, ConfigLocalFlags, n, settings.configLocalFile),
      match LastFlagged(argv, TagsFlags, n)
      case None => settings.tags
      case Some(p) => Split(argv[p], ","))
  }

  /** The reference reading of a whole command line. */
  function Parameters(argv: seq<string>, settings: Settings): Settings {
    PartialParameters(argv, settings, |argv|)
  }

  /** `readParameters(argv, settings)`: one pass over the positions; at each
      value position the flag before it decides which setting takes the value,
      a later pair overriding an earlier one. */
  method ReadParameters(argv: seq<string>, settings: Settings) returns (r: Settings)
    ensures r == Parameters(argv, settings)
  {
    r := settings;
    var i := 0;
    while i < |argv|
      invariant 0 <= i <= |argv|
      invariant r == PartialParameters(argv, settings, i)
    {
      r := ReadPosition(argv, settings, i, r);
      i := i + 1;
    }
  }

  /** The body of the scan at position `i`. */
  method ReadPosition(argv: seq<string>, settings: Settings, i: nat, r: Settings) returns (next: Settings)
    requires i < |argv| && r == PartialParameters(argv, settings, i)
    ensures next == PartialParameters(argv, settings, i + 1)
  {
    Advance(argv, ConfigFlags, i);
    Advance(argv, ConfigLocalFlags, i);
    Advance(argv, TagsFlags, i);
    next := r;
    if i > 1 && i % 2 != 0 {
      if argv[i - 1] in ConfigFlags {
        next := next.(configFile := argv[i]);
      }
      if argv[i - 1] in ConfigLocalFlags {
        next := next.(configLocalFile := argv[i]);
      }
      if argv[i - 1] in TagsFlags {
        next := next.(tags := Split(argv[i], ","));
      }
    }
  }

  /** A pair after the program and script names sets its value. */
  lemma TagsFlagExample()
    ensures Parameters(["node", "index.js", "--tags", "web"], Defaults).tags == ["web"]
    ensures Parameters(["node", "index.js", "--tags", "web"], Defaults).configFile == "config.json"
  {
    var argv := ["node", "index.js", "--tags", "web"];
    assert ValueAt(argv, 3) && argv[2] in TagsFlags;
    assert LastFlagged(argv, TagsFlags, 4) == Some(3);
    IndexOfChar("web", ',', -1);
    assert !ValueAt(argv, 2) && !ValueAt(argv, 1) && !ValueAt(argv, 0);
    assert argv[2] !in ConfigFlags;
  }

  /** A flag at an odd position is not read: its value sits at an even one. */
  lemma ShiftedFlagIgnored()
    ensures Parameters(["node", "index.js", "-v", "--config", "my.json"], Defaults).configFile == "config.json"
  {
    var argv := ["node", "index.js", "-v", "--config", "my.json"];
    assert !ValueAt(argv, 4) && !ValueAt(argv, 2) && !ValueAt(argv, 1) && !ValueAt(argv, 0);
    assert argv[2] !in ConfigFlags;
  }
}

=== FILE: paths.dfy ===
/** The POSIX `path` helpers the tool calls: `basename`, `dirname`, `extname`
    and the `dir`/`name` fields of `path.parse`. `path.sep` is '/'. */
module Paths {

  const Sep: char := '/'

  /** Position of the last `c` in `s`, or -1. */
  function LastIndexOf(s: string, c: char): (r: int)
    ensures -1 <= r < |s|
    ensures r >= 0 ==> s[r] == c
    ensures forall j :: r < j < |s| ==> s[j] != c
    decreases |s|
  {
    if s == [] then -1
    else if s[|s| - 1] == c then |s| - 1
    else LastIndexOf(s[..|s| - 1], c)
  }

  /** `k` is the last position of `c` in `s`. */
  lemma LastIndexOfAt(s: string, c: char, k: int)
    requires 0 <= k < |s| && s[k] == c
    requires forall j :: k < j < |s| ==> s[j] != c
    ensures LastIndexOf(s, c) == k
  {
  }

  /** Drops trailing separators, never the first character (a root stays a root). */
  function TrimTrailingSeps(p: string): (q: string)
    ensures |q| <= |p| && q == p[..|q|]
    ensures |p| > 0 ==> |q| > 0
    ensures |q| > 1 ==> q[|q| - 1] != Sep
    ensures |p| > 0 && p[|p| - 1] != Sep ==> q == p
    decreases |p|
  {
    if |p| > 1 && p[|p| - 1] == Sep then TrimTrailingSeps(p[..|p| - 1]) else p
  }

  /** `path.basename(p)`: the last segment, trailing separators ignored. */
  function Basename(p: string): (b: string)
    ensures Sep !in b
  {
    var q := TrimTrailingSeps(p);
    q[LastIndexOf(q, Sep) + 1..]
  }

  /** `path.dirname(p)`: everything before the last segment, "." when there is
      none, "/" for a root and "//" for a path that starts with two separators
      and has a single segment after them. */
  function Dirname(p: string): string {
    if p == [] then "."
    else
      var q := TrimTrailingSeps(p);
      var k := LastIndexOf(q[1..], Sep);
      if k < 0 then (if p[0] == Sep then "/" else ".")
      else if k == 0 && p[0] == Sep then "//"
      else q[..k + 1]
  }

  /** `path.parse(p).dir`: as `Dirname`, but "" when there is no directory part. */
  function ParseDir(p: string): string {
    if p == [] then ""
    else
      var q := TrimTrailingSeps(p);
      var k := LastIndexOf(q[1..], Sep);
      if k < 0 then (if p[0] == Sep then "/" else "")
      else q[..k + 1]
  }

  /** Where the extension of a base name starts, or -1: the last '.', unless it
      is the first character (".bashrc") or the name is "..". */
  function ExtDot(b: string): (d: int)
    ensures d == -1 || (0 < d < |b| && b[d] == '.')
  {
    var d := LastIndexOf(b, '.');
    if d <= 0 || b == ".." then -1 else d
  }

  /** `path.parse(p).name`: the base name without its extension. */
  function ParseName(p: string): (n: string)
    ensures Sep !in n
  {
    var b := Basename(p);
    var d := ExtDot(b);
    if d < 0 then b else b[..d]
  }

  /** `path.extname(p)`: the extension of the base name including its dot, or "". */
  function Extname(p: string): string {
    var b := Basename(p);
    var d := ExtDot(b);
    if d < 0 then "" else b[d..]
  }

  /** The base name of `dir + "/" + name` is `name` whenever `name` is a
      non-empty single segment, whatever `dir` is. */
  lemma BasenameOfJoin(dir: string, name: string)
    requires name != [] && Sep !in name
    ensures Basename(dir + [Sep] + name) == name
  {
    var p := dir + [Sep] + name;
    assert p[|p| - 1] == name[|name| - 1];
    assert TrimTrailingSeps(p) == p;
    var k := LastIndexOf(p, Sep);
    assert p[|dir|] == Sep;
    assert k == |dir|;
    assert p[k + 1..] == name;
  }

  /** Stem and extension put back together give the base name. */
  lemma NamePlusExtension(p: string)
    ensures ParseName(p) + Extname(p) == Basename(p)
  {
  }
}

=== FILE: pipeline.dfy ===
/** `run`: the settings, the prepared configuration, the resolved jobs and the
    chain of jobs, with the configuration already loaded and merged and the
    file system, glob and ImageMagick as oracles. */
module Pipeline {
  import opened Common
  import opened Js
  import opened Paths
  import opened Aliases
  import opened Config
  import opened Tags
  import opened Expand
  import opened Generate
  import opened Params

  /** How a run ends. */
  datatype RunResult =
    | RunAborted                                         // tag selection threw
    | RunStalled                                         // some selected entry never settles
    | Generated(jobs: seq<Image>, generation: Generation)

  /** One run over a loaded configuration. The config file named on the
      command line locates the base path when the configuration has none. */
  function Run(config: Config, argv: seq<string>, cwd: string, glob: Glob, fs: Fs): (r: RunResult)
    ensures var settings := Parameters(argv, Defaults);
      var setup := PrepareConfig(config, cwd, settings.configFile);
      && (r.RunAborted? <==> exists i :: 0 <= i < |setup.images| && !setup.images[i].tags.Str?)
      && (r.RunStalled? <==> (!r.RunAborted? &&
           exists x :: x in setup.images && Wanted(x, settings.tags) && !HasAlias(x.sourcePath, setup.aliases)))
      && (r.Generated? ==> forall job :: job in r.jobs ==>
           exists x :: x in setup.images && Wanted(x, settings.tags) && CopyOf(job, x))
      && (r.Generated? ==> r.generation == GenerateImages(r.jobs, setup, fs))
  {
    var settings := Parameters(argv, Defaults);
    var setup := PrepareConfig(config, cwd, settings.configFile);
    match ResolveImagePaths(setup, settings.tags, glob)
    case Aborted => RunAborted
    case Stalled => RunStalled
    case Resolved(jobs) => Generated(jobs, GenerateImages(jobs, setup, fs))
  }

  /** A run that gets to the generation step runs the gathered jobs of its
      selected entries, and exactly the jobs those entries resolve to. */
  lemma RunJobs(config: Config, argv: seq<string>, cwd: string, glob: Glob, fs: Fs)
    requires Run(config, argv, cwd, glob, fs).Generated?
    ensures var settings := Parameters(argv, Defaults);
      var setup := PrepareConfig(config, cwd, settings.configFile);
      SelectByTags(setup.images, settings.tags).Some? &&
      Gather(SelectByTags(setup.images, settings.tags).value, setup, glob) == Some(Run(config, argv, cwd, glob, fs).jobs)
    ensures var settings := Parameters(argv, Defaults);
      var setup := PrepareConfig(config, cwd, settings.configFile);
      forall job :: job in Run(config, argv, cwd, glob, fs).jobs <==>
        exists x :: x in setup.images && Wanted(x, settings.tags) && Produces(Resolver(setup, glob), x, job)
  {
    var settings := Parameters(argv, Defaults);
    ResolvedJobs(PrepareConfig(config, cwd, settings.configFile), settings.tags, glob);
  }

  /** An entry that is not an object never becomes a job: only entries that
      are objects can be selected. */
  lemma CommentsNeverSelected(config: Config, argv: seq<string>, cwd: string, glob: Glob, fs: Fs, job: Image)
    requires Run(config, argv, cwd, glob, fs).Generated?
    requires job in Run(config, argv, cwd, glob, fs).jobs
    ensures exists x :: Item(x) in config.images && CopyOf(job, x)
  {
    var settings := Parameters(argv, Defaults);
    var setup := PrepareConfig(config, cwd, settings.configFile);
    var x :| x in setup.images && Wanted(x, settings.tags) && CopyOf(job, x);
    assert x in Items(config.images);
  }

  /** Without aliases, a run whose tags select any entry never settles. */
  lemma NoAliasesStall(config: Config, argv: seq<string>, cwd: string, glob: Glob, fs: Fs, x: Image)
    requires Items(config.aliases) == []
    requires forall y :: y in Items(config.images) ==> y.tags.Str?
    requires x in Items(config.images) && Wanted(x, Parameters(argv, Defaults).tags)
    ensures Run(config, argv, cwd, glob, fs).RunStalled?
  {
    var settings := Parameters(argv, Defaults);
    var setup := PrepareConfig(config, cwd, settings.configFile);
    assert setup.aliases == [];
    assert forall i :: 0 <= i < |setup.images| ==> setup.images[i] in Items(config.images);
    var r := Run(config, argv, cwd, glob, fs);
    assert !r.RunAborted?;
    assert x in setup.images && Wanted(x, settings.tags) && !HasAlias(x.sourcePath, setup.aliases);
  }
}

=== FILE: tags.dfy ===
/** Tag selection: which image entries take part in a run. */
module Tags {
  import opened Common
  import opened Js
  import opened Config

  /** The tags used when none are requested. */
  const DefaultTags: seq<string> := ["all"]

  /** Some element of `a` is an element of `b`. */
  predicate Intersects(a: seq<string>, b: seq<string>) {
    exists i :: 0 <= i < |a| && a[i] in b
  }

  /** `_.intersection(image.tags.split(","), requested).length > 0`. */
  predicate Wanted(image: Image, requested: seq<string>) {
    image.tags.Str? && Intersects(Split(image.tags.s, ","), requested)
  }

  /** The tag filter of `resolveImagePaths`. Calling `split` on tags that are
      not a string throws, which ends the run before any image is resolved:
      that is the `None` result. Otherwise the wanted images, in order. */
  function SelectByTags(images: seq<Image>, requested: seq<string>): (r: Option<seq<Image>>)
    ensures r.None? <==> exists i :: 0 <= i < |images| && !images[i].tags.Str?
    ensures r.Some? ==> IsSubseq(r.value, images)
    ensures r.Some? ==> forall x :: x in r.value <==> x in images && Wanted(x, requested)
    ensures r.Some? ==> forall x :: multiset(r.value)[x] == if Wanted(x, requested) then multiset(images)[x] else 0
  {
    var ok := (x: Image) => x.tags.Str?;
    var keep := (x: Image) => Wanted(x, requested);
    FilterOrFailMembers(images, ok, keep);
    FilterOrFailKeepsOrder(images, ok, keep);
    FilterOrFail(images, ok, keep)
  }

  /** An entry tagged "icon,splash" is selected by "splash", not by "web", and the
      default request selects only entries that carry the tag "all" themselves. */
  lemma TagExamples(image: Image)
    requires image.tags == Str("icon,splash")
    ensures Wanted(image, ["splash"])
    ensures !Wanted(image, ["web"])
    ensures !Wanted(image, DefaultTags)
  {
    SplitIconSplash(image.tags.s);
    IconSplashTags(Split(image.tags.s, ","));
  }

  /** Which requests the tag list `icon, splash` meets. */
  lemma IconSplashTags(parts: seq<string>)
    requires parts == ["icon", "splash"]
    ensures Intersects(parts, ["splash"])
    ensures !Intersects(parts, ["web"])
    ensures !Intersects(parts, DefaultTags)
  {
    assert parts[1] in ["splash"];
    assert parts[0][0] == 'i' && parts[1][0] == 's';
  }

  lemma SplitIconSplash(s: string)
    requires s == "icon,splash"
    ensures Split(s, ",") == ["icon", "splash"]
  {
    IndexOfChar(s, ',', 4);
    SplitStep(s, ",", 4);
    assert s[..4] == "icon" && s[5..] == "splash";
    SplitSplash(s[5..]);
  }

  lemma SplitSplash(s: string)
    requires s == "splash"
    ensures Split(s, ",") == ["splash"]
  {
    IndexOfChar(s, ',', -1);
  }
}
